=== FILE: README.md ===
# Signal Desktop message model, in Dafny

This project models the state-transition logic of the Backbone `Message` model of
Signal Desktop (`js/models/messages.js`) as immutable records and pure functions,
and proves what those transitions promise.

- **Records** (`records.dfy`): the message, conversation, group context and data
  message records. It also holds the `flags` bit tests (`isEndSession`,
  `isExpirationTimerUpdate`) and the JavaScript truthiness of timestamps.
- **Error-list algebra** (`error_list.dfy`, on top of `seqs.dfy`):
  - the classification predicates `hasKeyConflicts`, `hasKeyConflict`,
    `getKeyConflict` and `isReplayableError`;
  - the order-preserving removals `removeConflictFor` (`_.reject`) and
    `removeOutgoingErrors` (`_.partition`, which also returns the first match);
  - `saveErrors`, which puts the new, normalized errors in front of the old ones;
  - `hasNetworkError`, both as written and as evidently intended.
- **Outgoing lifecycle** (`sending.dfy`): what `send`, `resend` and
  `resolveConflict` do to a message once the transport has answered.
  - The transport's answer is an input: delivered, failed with an `Error`, or
    partially failed with a list of errors and the numbers that succeeded.
  - Requests to collaborators are outputs: a signed-prekey rotation, a sync
    message, and a payload to merge again.
- **Merge** (`merge.dfy`): the job body of `handleDataMessage`. It is one pure
  function from the conversation, the message, the payload and a context to the
  new conversation and message. The context holds the local number, a read
  receipt already received (its `read_at`), the number of delivery receipts
  already received, and the current time. The merge also returns two outputs:
  - whether the conversation's `updateExpirationTimer` is called, and with what;
  - whether the conversation is asked to notify.
  A fold over a run of messages shows how unread counts and preview times
  accumulate.
- **Expiration** (`expiration.dfy`): `markRead`, `isExpiring`, `msTilExpire` and
  `setToExpire`, with the clock passed in. The two change listeners that run
  `setToExpire` when `expirationStartTimestamp` or `expireTimer` change are
  modelled as setters.
- **Text** (`description.dfy`): `getDescription` and `getNotificationText`.
  Localized strings are opaque tokens.
- **Collection** (`collection.dfy`): `getLoadedUnreadCount`.
- **Underscore helpers** (`membership.dfy`, `seqs.dfy`): `_.uniq`, `_.union`,
  `_.difference`, `_.without`, `_.partition`, `_.reject` and `_.find` on
  sequences, with order kept.

A few modelling choices apply throughout:

- Timestamps are `nat` milliseconds. An attribute that may be missing is an
  `Option<nat>`, and it counts as set only when it is present and non-zero
  (`Present`), as JavaScript truthiness has it.
- Timers are `nat` seconds, with 0 meaning "no timer".
- The flag values are those of the Signal protocol's `DataMessage.Flags`:
  END_SESSION = 1, EXPIRATION_TIMER_UPDATE = 2.

## Model

| member | source | states |
|---|---|---|
| Seqs.FirstIndex | js/models/messages.js:184-190 | `_.find`: the index of the first element satisfying the test, and none exactly when no element does |
| Seqs.SplitFacts | js/models/messages.js:280-287 | `_.partition` splits the list into the matching and the other elements: membership by the test, multiset and length preserved, and nothing moves when nothing matches |
| Seqs.Partition | js/models/messages.js:280-287 | the two halves of `_.partition`, each in the original order, together a permutation of the list |
| Seqs.PartitionConcat | js/models/messages.js:280-287 | partitioning a concatenation is concatenating the partitions, so relative order is kept on both sides |
| Seqs.PartitionHeadIsFirst | js/models/messages.js:287-288 | `errors[0][0]` is the first matching element of the original list |
| Seqs.RejectIdempotent | js/models/messages.js:261-268 | rejecting twice by the same test is rejecting once |
| Seqs.PartitionDistinct | js/models/messages.js:362-374 | filtering a duplicate-free list keeps it duplicate-free (used for `_.difference` and `_.without`) |
| Membership.Uniq | js/models/messages.js:359 | de-duplication keeps exactly the same members, each once, and never lengthens the list |
| Membership.UniqOfDistinct | js/models/messages.js:359 | a list without duplicates is unchanged by de-duplication |
| Membership.UniqPrefix | js/models/messages.js:359 | first occurrences keep their place: de-duplicating a longer list only appends |
| Membership.Union | js/models/messages.js:359 | `_.union(a, b)`: every member of either list exactly once, the de-duplicated `a` first |
| Membership.Difference | js/models/messages.js:362 | `_.difference(a, b)`: exactly the members of `a` not in `b`, in order, duplicate-free if `a` is |
| Membership.Without | js/models/messages.js:374 | `_.without(a, x)`: exactly the members of `a` other than `x`; unchanged when `x` is absent, shorter when present |
| Membership.UnionAppend | js/models/messages.js:359 | appending one element to the second list appends it to the union exactly when it is new, so the union keeps the first occurrence order of `a` then `b` |
| Membership.DifferenceConcat | js/models/messages.js:362 | the difference of a concatenation is the concatenation of the differences, so the kept elements stay in order |
| Membership.DifferenceSingleton | js/models/messages.js:362 | a single element survives the difference exactly when it is not in the removed list |
| Membership.WithoutConcat | js/models/messages.js:374 | `_.without` distributes over concatenation, so the kept elements stay in order |
| Membership.WithoutSingleton | js/models/messages.js:374 | a single element survives `_.without` exactly when it is not the removed value |
| Membership.DifferenceOfCovered | js/models/messages.js:362-365 | a list whose every element is in the removed list has an empty difference |
| Membership.UnionDifference | js/models/messages.js:359-365 | what the union added over `b` is the de-duplicated `a` minus `b`: the joined list of an UPDATE can be read off the payload members alone |
| Records.Message.IsEndSession | js/models/messages.js:31-34 | true exactly when the END_SESSION bit of `flags` is set, so it needs some flag; a message whose flags are exactly END_SESSION is an end session and not a timer update |
| Records.Message.IsExpirationTimerUpdate | js/models/messages.js:35-38 | true exactly when the EXPIRATION_TIMER_UPDATE bit of `flags` is set, so it needs some flag; a message whose flags are exactly EXPIRATION_TIMER_UPDATE is a timer update and not an end session |
| Records.Message.IsGroupUpdate | js/models/messages.js:39-41 | true exactly when the message carries a group-update summary |
| Records.Message.IsIncoming | js/models/messages.js:42-44 | true exactly for an incoming message: never for an outgoing one or a key-change notice |
| ErrorList.HasKeyConflicts | js/models/messages.js:171-176 | true exactly when some error is an incoming or outgoing identity-key error |
| ErrorList.HasErrors | js/models/messages.js:168-170 | true exactly when the list is not empty, so any conflict or replayable error makes it true |
| ErrorList.HasKeyConflict | js/models/messages.js:177-183 | true exactly when some identity-key error is about the given number |
| ErrorList.GetKeyConflict | js/models/messages.js:184-190 | the first identity-key error about the number, and none exactly when there is none |
| ErrorList.RemoveConflictFor | js/models/messages.js:261-268 | removes exactly the identity-key errors about the number; every other error stays; the list is shorter exactly when there was such a conflict |
| ErrorList.RemoveConflictForConcat | js/models/messages.js:261-268 | removal distributes over concatenation, so the kept errors stay in their original order |
| ErrorList.RemoveConflictForSingleton | js/models/messages.js:261-268 | a single error is dropped exactly when it is a conflict about the number |
| ErrorList.RemoveConflictForIdempotent | js/models/messages.js:261-268 | removing the conflicts for a number twice is removing them once |
| ErrorList.RemoveOutgoingErrors | js/models/messages.js:279-289 | keeps exactly the errors that are not replayable errors about the number; returns the earliest such error, or none exactly when there is none |
| ErrorList.RemoveOutgoingErrorsIsPartition | js/models/messages.js:279-289 | the kept errors and the removed ones together are a permutation of the original list |
| ErrorList.RemoveOutgoingErrorsConcat | js/models/messages.js:279-289 | removal distributes over concatenation, and the returned error is the first part's when it has one, else the second part's, so both the kept errors and the choice of error follow the list order |
| ErrorList.RemoveOutgoingErrorsSingleton | js/models/messages.js:279-289 | a single error is removed and returned exactly when it is a replayable error about the number |
| ErrorList.IsReplayableError | js/models/messages.js:290-295 | the four replayable error names; a replayable error is never an identity-key conflict |
| ErrorList.HasNetworkError | js/models/messages.js:270-278 | as written: true exactly when some error is replayable, whatever the number |
| ErrorList.HasNetworkErrorFor | js/models/messages.js:270-278 | as intended: true exactly when some replayable error is about the number |
| ErrorList.HasNetworkErrorForPredictsResend | js/models/messages.js:279-303 | the intended test holds exactly when `resend` for that number would replay something |
| ErrorList.HasNetworkErrorIgnoresNumber | js/models/messages.js:270-278 | a network error for "+A" makes the as-written test true for "+B", where a resend replays nothing |
| ErrorList.Normalize | js/models/messages.js:248-255 | errors from built-in constructors are reduced to name, message, code, number and reason, every other property dropped; other errors are kept as they are |
| ErrorList.SaveErrors | js/models/messages.js:240-259 | a single error is wrapped; the result is the new errors, in order, each the normalized form of the matching input error, followed by the existing list unchanged |
| ErrorList.SaveErrorsConflicts | js/models/messages.js:240-259 | after saving, there is a conflict for a number exactly when there was one among the new or the existing errors |
| Expiration.MsTilExpire | js/models/messages.js:471-483 | infinite exactly when not expiring; otherwise the time left until start + timer*1000, clamped at 0 |
| Expiration.IsExpiring | js/models/messages.js:468-470 | expiring needs a non-zero timer and a present, non-zero start; no timer or no start means not expiring |
| Expiration.MsTilExpireMonotone | js/models/messages.js:471-483 | the time left never grows as the clock advances |
| Expiration.SetToExpire | js/models/messages.js:484-493 | writes start + timer*1000 only for an expiring message without a deadline; changes nothing else and never replaces a deadline |
| Expiration.SetToExpireIdempotent | js/models/messages.js:484-493 | a second `setToExpire` changes nothing |
| Expiration.SetToExpireEstablishesConsistency | js/models/messages.js:484-493 | from no deadline, the message ends with the deadline exactly when it is expiring |
| Expiration.WithExpirationStart | js/models/messages.js:14 | setting the start fires `setToExpire` only when the value changes; the deadline stays as it was whenever the value is unchanged, there is no timer, the start is unset, or a deadline already exists |
| Expiration.WithExpireTimer | js/models/messages.js:15 | setting the timer fires `setToExpire` only when the value changes; the deadline stays as it was whenever the value is unchanged, the timer is cleared, no start is set, or a deadline already exists |
| Expiration.MarkRead | js/models/messages.js:458-467 | clears `unread`; starts the countdown at `read_at`, or at now, only when there is a timer and no start; a consistent deadline stays consistent |
| Expiration.MarkReadIdempotent | js/models/messages.js:458-467 | marking read twice is marking read once, given a non-zero clock |
| Description.GroupUpdateText | js/models/messages.js:49-64 | "X left the group." when someone left; otherwise exactly "Updated the group." followed by " Title is now 'N'." when a name is set and by " J1, J2 joined the group." when a joined list is present |
| Description.UpdateText | js/models/messages.js:54-63 | the sentences of an update without `left`, in the code's order: the opening, the title, then the comma-joined list of who joined |
| Description.GetDescription | js/models/messages.js:48-75 | group update first, then end-session; an incoming message's conflict notice exactly when it has a key conflict, its error notice exactly when it has errors but no conflict; otherwise the body; no description only when the body is absent |
| Description.NotificationText | js/models/messages.js:79-100 | a truthy description wins; otherwise media exactly when there are attachments, a timer notice exactly for a timer update (with the timer it carries), a key-change notice exactly for a key change (with its identity); the empty text exactly when none of these applies |
| Sending.MarkSent | js/models/messages.js:200 | marks the message sent and starts its countdown now, changing nothing else but the deadline |
| Sending.Send | js/models/messages.js:192-223 | a sync is requested and the message is marked sent with start = now exactly on success or partial success with some successful numbers; an `Error` never marks it sent; a rotation is requested exactly for a `SignedPreKeyRotationError`; new errors go in front |
| Sending.SendKeepsExpiryConsistent | js/models/messages.js:192-223 | a message whose countdown had not started leaves `send` with a consistent deadline |
| Sending.SendKeepsErrors | js/models/messages.js:202-221 | `send` never drops an error: every old error stays and every error of the outcome is added in normalized form |
| Sending.SendErrorsSplit | js/models/messages.js:202-221 | the errors after `send` are exactly the outcome's errors as `saveErrors` stores them, followed by the message's own |
| Sending.SendKeepsExistingDeadline | js/models/messages.js:192-200 | a message that already has a deadline keeps it through `send`, whatever the outcome |
| Sending.SendAgainLeavesStaleDeadline | js/models/messages.js:200 | a consistent message sent again at a later time gets the new start but keeps the old deadline, so start plus timer no longer matches it |
| Sending.Resend | js/models/messages.js:297-303 | replays exactly when a replayable error for the number was removed, replays the earliest such error (the one `_.partition` puts first), and then sends the message without those errors; otherwise nothing changes |
| Sending.ResendDeliveredClearsErrors | js/models/messages.js:297-303 | a delivered replay leaves no replayable error for the number, keeps every other error, and marks the message sent |
| Sending.ResolveConflict | js/models/messages.js:305-328 | replays exactly when there is a conflict for the number, and otherwise changes nothing. Outgoing: sync and start = now exactly on success, start and deadline unchanged otherwise, sent if it was or succeeded, rotation exactly for a `SignedPreKeyRotationError`; the errors are exactly the replay's saved errors then the old ones, both without conflicts for the number. Incoming: the decrypted payload is merged again, no sync, no rotation, only the errors change, and they are exactly the old ones without the conflict, with a failure saved in front. In both directions only sent, start, deadline, errors and the data message can change |
| Sending.ReplayIncoming | js/models/messages.js:305-324 | on success the payload is merged again and the errors are exactly the old ones without conflicts for the number; on error they are exactly the saved failure followed by those; nothing else changes, and no sync or rotation is requested |
| Sending.ReplayOutgoing | js/models/messages.js:314-324 | an outgoing replay sends the message: sync, sent and start exactly as `send` reports them, start and deadline unchanged on failure, rotation exactly for a `SignedPreKeyRotationError`; the errors are exactly the replay's saved errors then the old ones, each without conflicts for the number; only sent, start, deadline, errors and the data message change |
| Merge.TargetConversationId | js/models/messages.js:334-341 | the group's id when the payload has a group, otherwise the message's own conversation |
| Merge.Joined | js/models/messages.js:362-365 | absent exactly when every payload member was already a member; otherwise the de-duplicated payload members minus the old members, in payload order |
| Merge.ApplyGroup | js/models/messages.js:347-380 | UPDATE: members are exactly `Union(payload members, old members)`; `joined` is exactly `Joined`; name and avatar appear in the summary only when they change. QUIT: members are exactly the old list without the sender, in order; `left` is "You" for the local number, else the sender; the conversation is left only in the local case |
| Merge.CopyContent | js/models/messages.js:381-388 | the payload's body, attachments and flags replace the message's; errors are cleared; a new group summary replaces the old one |
| Merge.ApplyTimer | js/models/messages.js:400-410 | a timer-update message records its source and timer and sets the conversation's timer; any other message takes a non-zero payload timer. Through the timer's change listener, a changed timer on a message with a start and no deadline writes the deadline start + timer*1000; in every other case the deadline is unchanged |
| Merge.TimerDecision | js/models/messages.js:412-423 | `updateExpirationTimer` is called exactly for a message that is neither end-session nor group update and whose payload timer differs from the conversation's, with null for a zero timer |
| Merge.ApplyUnread | js/models/messages.js:424-436 | an incoming message with a read receipt or a timer update is marked read; any other incoming message adds exactly one to the unread count; an outgoing one changes nothing; an existing start is never overwritten. Through the start's change listener, an incoming message with a timer, a read receipt and neither start nor deadline gets the deadline `read_at` + timer*1000; in every other case the deadline is unchanged |
| Merge.UpdatePreview | js/models/messages.js:438-444 | the preview changes exactly when the conversation timestamp is absent or zero, or the message is strictly newer; the timestamp never decreases |
| Merge.Prepare | js/models/messages.js:338-398 | with a group, the conversation becomes a group with the payload's id; without one, it becomes private, takes now as its activity time and the message keeps its summary; the content copy and activity time change only the fields they name; delivery receipts count only for an outgoing message |
| Merge.Settle | js/models/messages.js:400-444 | the unread count grows by one exactly when the message counts as unread, and the timestamp never decreases; of the message only the timer fields, start, deadline and `unread` change, and `unread` only for an incoming message; a written deadline stays, and a message whose countdown had not started leaves with a deadline consistent with its start and timer |
| Merge.TimerAndUnreadFrame | js/models/messages.js:400-436 | the timer step and the unread step together change only the timer fields, start, deadline and `unread`, and `unread` only for an incoming message |
| Merge.TimerAndUnreadDeadline | js/models/messages.js:400-436 | the timer step and the unread step, with the `setToExpire` the change listeners run (js/models/messages.js:484-493), keep a written deadline, and leave a message whose countdown had not started with a consistent deadline |
| Merge.Merge | js/models/messages.js:329-457 | the merged message belongs to the conversation; the unread count grows by one exactly for an unread incoming message; the preview time never goes back; of the message only the attributes the job body sets change (summary, content, conversation id, decryption time, errors, delivery count, timer fields, start, deadline, `unread`), and `unread` never for an outgoing message; a written deadline stays, and a message whose countdown had not started leaves with a consistent deadline |
| Merge.MergeUpdatesGroup | js/models/messages.js:353-366 | after an UPDATE: members exactly `Union(payload members, old members)`, the new name and avatar, and a summary whose joined list is exactly the de-duplicated payload members minus the old ones |
| Merge.MergeQuitsGroup | js/models/messages.js:367-375 | after a QUIT: members exactly the old list without the sender, in order; left only in the local case; summary "You" or the sender |
| Merge.MergeGroupPart | js/models/messages.js:347-380 | with any group context (UPDATE, QUIT or DELIVER), the merged group fields are exactly those the group part computed, and the message takes its summary when there is one |
| Merge.MergeWithoutGroup | js/models/messages.js:338-346 | without a group context the conversation becomes private and keeps its group fields; the message keeps its summary |
| Merge.MergeIntoTarget | js/models/messages.js:334-341 | run on the conversation named by `TargetConversationId`, the merged message and conversation carry that id, which is the group's id for a group message |
| Merge.MergeCopiesContent | js/models/messages.js:381-398 | the merged message has the payload content, no errors, the decryption time, and delivery receipts only if outgoing |
| Merge.MergeTimerPolicy | js/models/messages.js:400-423 | no timer call exactly for an end-session, group-update or timer-update message, or for an unchanged timer |
| Merge.MergeTimerUpdate | js/models/messages.js:400-408 | a timer-update message sets the conversation's timer, records its source, never calls `updateExpirationTimer`, and an incoming one never notifies |
| Merge.MergeTakesTimer | js/models/messages.js:408-410 | any other message takes a non-zero payload timer and leaves the conversation's timer alone |
| Merge.MergeReadReceipt | js/models/messages.js:424-433 | an earlier read receipt marks the message read, leaves the unread count and the notification alone, starts a pending countdown at `read_at`, never restarts a running one, and, for a message without start or deadline, gives the deadline `read_at` + timer*1000 |
| Merge.MergeReadReceiptDeadline | js/models/messages.js:408-433 | a payload timer taken by a message whose countdown had not started, with a read receipt: the timer is the payload's, the start is `read_at`, the deadline is `read_at` + timer*1000, and the message is consistent |
| Merge.ThirtySecondScenario | js/models/messages.js:408-433 | a thirty-second timer and a read receipt at `t` give the deadline `t` + 30000 |
| Merge.MergeNotifies | js/models/messages.js:445-452 | the conversation is notified exactly when the merged message is still unread |
| Merge.MergePreview | js/models/messages.js:438-444 | the preview takes the notification text and sent time exactly when the message is newer; otherwise it is untouched |
| Merge.MergePreviewStable | js/models/messages.js:438-444 | merging the same message again leaves the preview as it was |
| Merge.MergeAll | js/models/messages.js:341-444 | folding merges over a run of messages keeps the conversation id and never lowers the unread count |
| Merge.ExpectedUnread | js/models/messages.js:424-436 | the number of messages that count as unread is at most the run's length, and zero when none is incoming |
| Merge.MergeAllAccounts | js/models/messages.js:341-444 | over a run of messages, the unread count grows by exactly the number of unread incoming ones, the id is kept, and the preview time never goes back |
| Merge.UpdateScenarioUnion | js/models/messages.js:359 | the union of [A, B, C] and [A, B] is [A, B, C] |
| Merge.UpdateScenarioJoined | js/models/messages.js:362-366 | the difference of [A, B, C] and [A, B] is [C], so only C has joined |
| Merge.UpdateScenarioGroup | js/models/messages.js:353-366 | the group part of that UPDATE computes members [A, B, C] and the summary {name: "Team", joined: [C]} |
| Merge.UpdateScenario | js/models/messages.js:353-378 | an UPDATE of group [A, B] to [A, B, C] named "Team" yields members [A, B, C] and summary {name: "Team", joined: [C]} |
| Merge.QuitScenario | js/models/messages.js:367-375 | the local user's QUIT leaves the conversation and is described as "You left the group." |
| Merge.QuitByYouDescription | js/models/messages.js:49-53 | a summary with `left` = "You" is described as "You left the group." |
| Collection.LoadedUnreadCount | js/models/messages.js:527-535 | the tally is at most the number of loaded messages; it is zero exactly when none is unread, and full exactly when all are |
| Collection.LoadedUnreadCountConcat | js/models/messages.js:527-535 | the tally of two runs is the sum of their tallies |
| Collection.MarkReadLowersCount | js/models/messages.js:527-535 | marking one loaded message read lowers the tally by one if it was unread, and otherwise leaves it alone |

## Left out

- Persistence (`save`, `fetch`, `destroy`) and the collection's index queries
  (`fetchSentAt`, `fetchConversation`, `fetchNextExpiring`, `fetchExpired`): these are
  store I/O.
- The sync-message chain (`sendSyncMessage`): it is asynchronous transport work.
  `send` only reports whether a sync is requested.
- The conversation lookup or creation and the job queue around the merge. The
  merge runs on the conversation its caller passes; `TargetConversationId` states
  which one that is.
- Replays, the messaging layer and signed-prekey rotation are network and crypto
  calls. Their outcomes are inputs, and a rotation request is an output.
- The internals of `updateExpirationTimer`: the merge returns the call it would
  make and leaves the conversation's timer to it.
- `Whisper.ExpiringMessagesListener.update()`, the notifications removed by
  `markRead`, and `console.log`: these are UI and logging calls.
- The Backbone events `trigger('pending')` and `trigger('done')` in `send` and
  `trigger('newmessage')` after the merge: they only notify views. The merge's
  notify output stands for the `conversation.notify` call that follows.
- `updateImageUrl`, `revokeImageUrl` and `getImageUrl`: these use the browser Blob
  and URL API.
- The `setToExpire` call in `initialize` and the `validate` logging: they belong to
  object construction and storage.
- `getContact`, `getModelForKeyChange`, `getExpirationTimerUpdateSource` and the
  conversation title they produce: these are controller lookups. A key-change
  notice carries the changed identity instead of a title.
- The rendering of localized strings and `Whisper.ExpirationTimerOptions`:
  localized strings are opaque tokens.
- Merge.ApplyGroup: a group-update name or avatar that changed to null is
  flattened into "unchanged", since both are `None` in the summary.
- Expiration.MarkRead: the code does not keep the deadline equal to start plus
  timer once it has been written. A later change of timer or start leaves the old
  `expires_at`, because `setToExpire` never overwrites it
  (`Sending.SendAgainLeavesStaleDeadline` shows one such input). So consistency is
  proved to be preserved, not established.
- Sending.SendKeepsExpiryConsistent: stated only for a message whose countdown had
  not started, for the same reason.
- Description.NotificationText: the source throws a TypeError for a message
  flagged as a timer update that has no `expirationTimerUpdate` record, no truthy
  description and no attachments (js/models/messages.js:87-92 reads `.expireTimer`
  of undefined). The model requires the record in that case instead of modelling
  the throw; the merge always writes the record first
  (js/models/messages.js:400-406).
- Merge.Merge: the proof of the whole merge is split across `Prepare`, `Settle` and
  the `Merge*` lemmas, rather than one contract.

## Findings

| source | as written | input that shows it | evidently intended | confidence | as-written member | corrected member |
|---|---|---|---|---|---|---|
| js/models/messages.js:270-278 | `hasNetworkError(number)` never reads `number` and is true when any error is replayable | errors = [a `SendMessageNetworkError` for "+A"], number = "+B": true, but `resend("+B")` replays nothing | true exactly when some replayable error is about `number`, which is when `resend(number)` would replay | medium, not executed | ErrorList.HasNetworkErrorIgnoresNumber | ErrorList.HasNetworkErrorForPredictsResend |

=== FILE: collection.dfy ===
/** The message collection's unread tally, `getLoadedUnreadCount`
    (js/models/messages.js): a message's `unread` attribute counts one when
    set and nothing when absent. */
module Collection {
  import opened Wrappers
  import opened Records
  import opened Expiration

  /** One for an unread message, nothing otherwise. */
  function UnreadWeight(m: Message): nat {
    if m.unread then 1 else 0
  }

  /** `getLoadedUnreadCount`: the sum of the loaded messages' weights. */
  function LoadedUnreadCount(ms: seq<Message>): (r: nat)
    ensures r <= |ms|
    ensures r == 0 <==> forall i :: 0 <= i < |ms| ==> !ms[i].unread
    ensures r == |ms| <==> forall i :: 0 <= i < |ms| ==> ms[i].unread
  {
    if |ms| == 0 then 0
    else LoadedUnreadCount(ms[..|ms| - 1]) + UnreadWeight(ms[|ms| - 1])
  }

  /** Appending one message adds its weight to the tally. */
  lemma LoadedUnreadCountSnoc(s: seq<Message>, x: Message)
    ensures LoadedUnreadCount(s + [x]) == LoadedUnreadCount(s) + UnreadWeight(x)
  {
    assert (s + [x])[..|s|] == s;
  }

  /** The inductive step of `LoadedUnreadCountConcat`: the sum rule carries
      over from `b` to `b + [x]`. */
  lemma ConcatSnocStep(a: seq<Message>, b: seq<Message>, x: Message)
    requires LoadedUnreadCount(a + b) == LoadedUnreadCount(a) + LoadedUnreadCount(b)
    ensures LoadedUnreadCount(a + (b + [x])) == LoadedUnreadCount(a) + LoadedUnreadCount(b + [x])
  {
    assert a + (b + [x]) == (a + b) + [x];
    LoadedUnreadCountSnoc(a + b, x);
    LoadedUnreadCountSnoc(b, x);
  }

  /** The tally of two runs of messages is the sum of their tallies. */
  lemma {:induction false} LoadedUnreadCountConcat(a: seq<Message>, b: seq<Message>)
    ensures LoadedUnreadCount(a + b) == LoadedUnreadCount(a) + LoadedUnreadCount(b)
    decreases |b|
  {
    if |b| == 0 {
      assert a + b == a;
    } else {
      var b' := b[..|b| - 1];
      assert b == b' + [b[|b| - 1]];
      LoadedUnreadCountConcat(a, b');
      ConcatSnocStep(a, b', b[|b| - 1]);
    }
  }

  /** Marking one loaded message read lowers the tally by one if it was
      unread, and otherwise leaves it alone. */
  lemma MarkReadLowersCount(ms: seq<Message>, i: nat, readAt: Option<nat>, now: nat)
    requires i < |ms|
    ensures LoadedUnreadCount(ms[i := MarkRead(ms[i], readAt, now)])
      == LoadedUnreadCount(ms) - UnreadWeight(ms[i])
  {
    var ms' := ms[i := MarkRead(ms[i], readAt, now)];
    assert ms == ms[..i] + [ms[i]] + ms[i + 1..];
    assert ms' == ms[..i] + [ms'[i]] + ms[i + 1..];
    LoadedUnreadCountConcat(ms[..i] + [ms[i]], ms[i + 1..]);
    LoadedUnreadCountConcat(ms[..i], [ms[i]]);
    LoadedUnreadCountConcat(ms[..i] + [ms'[i]], ms[i + 1..]);
    LoadedUnreadCountConcat(ms[..i], [ms'[i]]);
    assert LoadedUnreadCount([ms'[i]]) == 0;
    assert LoadedUnreadCount([ms[i]]) == UnreadWeight(ms[i]);
  }
}

=== FILE: description.dfy ===
/** The text a message is summarized by: `getDescription` and
    `getNotificationText` (js/models/messages.js). Localized strings are
    represented by their keys. */
module Description {
  import opened Wrappers
  import opened ErrorList
  import opened Records

  /** `xs.join(sep)`. */
  function Join(xs: seq<string>, sep: string): string {
    if |xs| == 0 then ""
    else if |xs| == 1 then xs[0]
    else Join(xs[..|xs| - 1], sep) + sep + xs[|xs| - 1]
  }

  /** JavaScript truthiness of an optional string. */
  predicate NonEmpty(s: Option<string>) {
    s.Some? && s.value != ""
  }

  const UPDATED := "Updated the group."
  const LEFT_SUFFIX := " left the group."
  const JOINED_SUFFIX := " joined the group."

  /** The sentences describing a group update, before they are joined. */
  function UpdateSentences(gu: GroupUpdate): seq<string> {
    [UPDATED]
    + (if NonEmpty(gu.name) then [TITLE_PREFIX + gu.name.value + TITLE_SUFFIX] else [])
    + (if gu.joined.Some? then [Join(gu.joined.value, ", ") + JOINED_SUFFIX] else [])
  }

  const TITLE_PREFIX := "Title is now '"
  const TITLE_SUFFIX := "'."

  /** The text of a group update: who left, or else "Updated the group."
      followed by the new title when there is one and by the list of who
      joined when someone did, each after a space. */
  function GroupUpdateText(gu: GroupUpdate): (r: string)
    ensures NonEmpty(gu.left) ==> r == gu.left.value + LEFT_SUFFIX
    ensures !NonEmpty(gu.left) ==>
      r == UPDATED
        + (if NonEmpty(gu.name) then " " + TITLE_PREFIX + gu.name.value + TITLE_SUFFIX else "")
        + (if gu.joined.Some? then " " + Join(gu.joined.value, ", ") + JOINED_SUFFIX else "")
  {
    if NonEmpty(gu.left) then gu.left.value + LEFT_SUFFIX
    else
      UpdateText(gu);
      Join(UpdateSentences(gu), " ")
  }

  /** The joined update sentences, written out case by case. */
  lemma UpdateText(gu: GroupUpdate)
    ensures Join(UpdateSentences(gu), " ") == UPDATED
      + (if NonEmpty(gu.name) then " " + TITLE_PREFIX + gu.name.value + TITLE_SUFFIX else "")
      + (if gu.joined.Some? then " " + Join(gu.joined.value, ", ") + JOINED_SUFFIX else "")
  {
    var title := TITLE_PREFIX + (if NonEmpty(gu.name) then gu.name.value else "") + TITLE_SUFFIX;
    var joined := (if gu.joined.Some? then Join(gu.joined.value, ", ") else "") + JOINED_SUFFIX;
    JoinOptionalParts(UPDATED, title, joined, NonEmpty(gu.name), gu.joined.Some?);
    assert UpdateSentences(gu) == [UPDATED] + (if NonEmpty(gu.name) then [title] else [])
      + (if gu.joined.Some? then [joined] else []);
    if NonEmpty(gu.name) {
      assert " " + title == " " + TITLE_PREFIX + gu.name.value + TITLE_SUFFIX;
    }
    if gu.joined.Some? {
      assert " " + joined == " " + Join(gu.joined.value, ", ") + JOINED_SUFFIX;
    }
  }

  /** Joining a first part and up to two optional parts with spaces puts a
      space before each optional part that is present. */
  lemma JoinOptionalParts(first: string, second: string, third: string, hasSecond: bool, hasThird: bool)
    ensures Join([first] + (if hasSecond then [second] else []) + (if hasThird then [third] else []), " ")
      == first + (if hasSecond then " " + second else "") + (if hasThird then " " + third else "")
  {
    var parts := [first] + (if hasSecond then [second] else []) + (if hasThird then [third] else []);
    JoinUpToThree(parts, " ");
    if hasSecond && hasThird {
      assert parts == [first, second, third];
    } else if hasSecond {
      assert parts == [first, second];
    } else if hasThird {
      assert parts == [first, third];
    } else {
      assert parts == [first];
    }
  }

  /** `join` of one, two or three strings, written out. */
  lemma JoinUpToThree(xs: seq<string>, sep: string)
    requires 1 <= |xs| <= 3
    ensures |xs| == 1 ==> Join(xs, sep) == xs[0]
    ensures |xs| == 2 ==> Join(xs, sep) == xs[0] + sep + xs[1]
    ensures |xs| == 3 ==> Join(xs, sep) == xs[0] + sep + xs[1] + sep + xs[2]
  {
    if |xs| >= 2 {
      assert xs[..|xs| - 1][..1] == [xs[0]];
    }
    if |xs| == 3 {
      assert xs[..2] == [xs[0], xs[1]];
    }
  }

  /** `getDescription`: a group update's text, then the end-session notice,
      then the incoming key-conflict and error notices, and otherwise the body
      (which may be absent). */
  function GetDescription(m: Message): (r: Option<Text>)
    ensures m.IsGroupUpdate() ==> r == Some(Str(GroupUpdateText(m.groupUpdate.value)))
    ensures !m.IsGroupUpdate() && m.IsEndSession() ==> r == Some(SessionEnded)
    ensures r.None? ==> m.body.None?
    ensures r == Some(IncomingKeyConflict) <==>
      !m.IsGroupUpdate() && !m.IsEndSession() && m.IsIncoming() && HasKeyConflicts(m.errors)
    ensures r == Some(IncomingError) <==>
      !m.IsGroupUpdate() && !m.IsEndSession() && m.IsIncoming() && !HasKeyConflicts(m.errors) && HasErrors(m.errors)
    ensures !m.IsGroupUpdate() && !m.IsEndSession() && !(m.IsIncoming() && HasErrors(m.errors)) ==>
      r == if m.body.Some? then Some(Str(m.body.value)) else None
  {
    if m.IsGroupUpdate() then Some(Str(GroupUpdateText(m.groupUpdate.value)))
    else if m.IsEndSession() then Some(SessionEnded)
    else if m.IsIncoming() && HasKeyConflicts(m.errors) then Some(IncomingKeyConflict)
    else if m.IsIncoming() && HasErrors(m.errors) then Some(IncomingError)
    else if m.body.Some? then Some(Str(m.body.value))
    else None
  }

  /** JavaScript truthiness of a description: an absent or empty body is
      falsy, a localized message never is. */
  predicate Truthy(t: Option<Text>) {
    t.Some? && (t.value.Str? ==> t.value.s != "")
  }

  /** `getNotificationText` reads the timer-update record without checking it
      exists, so it is defined only when the record is there whenever it is
      read. */
  predicate NotificationTextDefined(m: Message) {
    Truthy(GetDescription(m)) || |m.attachments| > 0
      || !m.IsExpirationTimerUpdate() || m.expirationTimerUpdate.Some?
  }

  /** `getNotificationText`: the description if it says something, else a
      media notice, a timer notice, a key-change notice, or the empty text. */
  function NotificationText(m: Message): (r: Text)
    requires NotificationTextDefined(m)
    ensures Truthy(GetDescription(m)) ==> r == GetDescription(m).value
    ensures r == MediaMessage <==> !Truthy(GetDescription(m)) && |m.attachments| > 0
    ensures r.TimerSetTo? <==> !Truthy(GetDescription(m)) && |m.attachments| == 0 && m.IsExpirationTimerUpdate()
    ensures r.TimerSetTo? ==> m.expirationTimerUpdate.Some? && r.seconds == m.expirationTimerUpdate.value.expireTimer
    ensures r.KeyChanged? <==> (!Truthy(GetDescription(m)) && |m.attachments| == 0
      && !m.IsExpirationTimerUpdate() && m.direction == KeyChange)
    ensures r.KeyChanged? ==> r.id == m.keyChanged
    ensures r == Str("") <==> (!Truthy(GetDescription(m)) && |m.attachments| == 0
      && !m.IsExpirationTimerUpdate() && m.direction != KeyChange)
  {
    var description := GetDescription(m);
    if Truthy(description) then description.value
    else if |m.attachments| > 0 then MediaMessage
    else if m.IsExpirationTimerUpdate() then TimerSetTo(m.expirationTimerUpdate.value.expireTimer)
    else if m.direction == KeyChange then KeyChanged(m.keyChanged)
    else Str("")
  }
}

=== FILE: error_list.dfy ===
/** The error records a message carries, their classification by `name` tag,
    and the list operations that add and remove them (js/models/messages.js). */
module ErrorList {
  import opened Wrappers
  import opened Seqs

  const INCOMING_IDENTITY_KEY_ERROR := "IncomingIdentityKeyError"
  const OUTGOING_IDENTITY_KEY_ERROR := "OutgoingIdentityKeyError"
  const MESSAGE_ERROR := "MessageError"
  const OUTGOING_MESSAGE_ERROR := "OutgoingMessageError"
  const SEND_MESSAGE_NETWORK_ERROR := "SendMessageNetworkError"
  const SIGNED_PRE_KEY_ROTATION_ERROR := "SignedPreKeyRotationError"

  /** How an error object came to be: thrown by a built-in `Error`, `TypeError`
      or `ReferenceError` constructor, thrown by one of the transport's own
      error classes, or already reduced to a plain record. */
  datatype Origin = Builtin | Custom | Copied

  /** An error attached to a message. `number` is the identity the error is
      about; `extra` stands for every other own property (a stack trace, the
      arguments a replay needs, an identity key). */
  datatype ErrorRecord = ErrorRecord(
    name: string,
    message: string,
    code: Option<int>,
    number: Option<string>,
    reason: Option<string>,
    origin: Origin,
    extra: seq<string>)

  predicate IsKeyConflict(e: ErrorRecord) {
    e.name == INCOMING_IDENTITY_KEY_ERROR || e.name == OUTGOING_IDENTITY_KEY_ERROR
  }

  predicate IsConflictFor(e: ErrorRecord, number: string) {
    IsKeyConflict(e) && e.number == Some(number)
  }

  /** `isReplayableError`: the failures a resend may retry unchanged. No
      identity-key conflict is one of them: conflicts are resolved, not resent. */
  predicate IsReplayableError(e: ErrorRecord)
    ensures IsReplayableError(e) ==> !IsKeyConflict(e)
  {
    || e.name == MESSAGE_ERROR
    || e.name == OUTGOING_MESSAGE_ERROR
    || e.name == SEND_MESSAGE_NETWORK_ERROR
    || e.name == SIGNED_PRE_KEY_ROTATION_ERROR
  }

  predicate IsReplayableFor(e: ErrorRecord, number: string) {
    e.number == Some(number) && IsReplayableError(e)
  }

  /** `hasErrors`: the list is not empty; a message with a key conflict or a
      replayable error always has errors. */
  predicate HasErrors(errors: seq<ErrorRecord>)
    ensures HasErrors(errors) <==> errors != []
    ensures (exists i :: 0 <= i < |errors| && (IsKeyConflict(errors[i]) || IsReplayableError(errors[i])))
      ==> HasErrors(errors)
  {
    |errors| > 0
  }

  /** `hasKeyConflicts`: some error is an identity-key conflict. */
  function HasKeyConflicts(errors: seq<ErrorRecord>): (r: bool)
    ensures r <==> exists i :: 0 <= i < |errors| && IsKeyConflict(errors[i])
  {
    FirstIndex(errors, IsKeyConflict).Some?
  }

  /** `hasKeyConflict(number)`: some error is a key conflict for `number`. */
  function HasKeyConflict(errors: seq<ErrorRecord>, number: string): (r: bool)
    ensures r <==> exists i :: 0 <= i < |errors| && IsConflictFor(errors[i], number)
  {
    FirstIndex(errors, e => IsConflictFor(e, number)).Some?
  }

  /** `getKeyConflict(number)`: the first key conflict for `number`, if any. */
  function GetKeyConflict(errors: seq<ErrorRecord>, number: string): (r: Option<ErrorRecord>)
    ensures r.None? <==> !HasKeyConflict(errors, number)
    ensures r.Some? ==> exists i :: (0 <= i < |errors| && errors[i] == r.value
      && IsConflictFor(errors[i], number)
      && forall j :: 0 <= j < i ==> !IsConflictFor(errors[j], number))
  {
    match FirstIndex(errors, e => IsConflictFor(e, number))
    case None => None
    case Some(i) => Some(errors[i])
  }

  /** `removeConflictFor(number)`: drops exactly the key conflicts for `number`. */
  function RemoveConflictFor(errors: seq<ErrorRecord>, number: string): (r: seq<ErrorRecord>)
    ensures forall e :: e in r <==> e in errors && !IsConflictFor(e, number)
    ensures |r| <= |errors|
    ensures |r| == |errors| <==> !HasKeyConflict(errors, number)
    ensures !HasKeyConflict(errors, number) ==> r == errors
  {
    var parts := Partition(errors, e => IsConflictFor(e, number));
    if |parts.pass| > 0 then
      assert parts.pass[0] in parts.pass;
      parts.fail
    else
      parts.fail
  }

  /** Removing conflicts works element by element, so it keeps the order of
      what remains: it distributes over concatenation. */
  lemma RemoveConflictForConcat(a: seq<ErrorRecord>, b: seq<ErrorRecord>, number: string)
    ensures RemoveConflictFor(a + b, number) == RemoveConflictFor(a, number) + RemoveConflictFor(b, number)
  {
    PartitionConcat(a, b, e => IsConflictFor(e, number));
  }

  lemma RemoveConflictForSingleton(e: ErrorRecord, number: string)
    ensures RemoveConflictFor([e], number) == if IsConflictFor(e, number) then [] else [e]
  {
  }

  /** A second removal for the same identity changes nothing. */
  lemma RemoveConflictForIdempotent(errors: seq<ErrorRecord>, number: string)
    ensures RemoveConflictFor(RemoveConflictFor(errors, number), number) == RemoveConflictFor(errors, number)
  {
  }

  /** The result of `removeOutgoingErrors(number)`: the errors left on the
      message and the first error removed, if any. */
  datatype Removal = Removal(kept: seq<ErrorRecord>, first: Option<ErrorRecord>)

  /** `removeOutgoingErrors(number)`: partitions off the replayable errors for
      `number` and hands back the first of them. */
  function RemoveOutgoingErrors(errors: seq<ErrorRecord>, number: string): (r: Removal)
    ensures forall e :: e in r.kept <==> e in errors && !IsReplayableFor(e, number)
    ensures r.first.None? <==> forall i :: 0 <= i < |errors| ==> !IsReplayableFor(errors[i], number)
    ensures r.first.None? ==> r.kept == errors
    ensures r.first.Some? ==> exists i :: (0 <= i < |errors| && errors[i] == r.first.value
      && IsReplayableFor(errors[i], number)
      && forall j :: 0 <= j < i ==> !IsReplayableFor(errors[j], number))
    ensures r.first.Some? ==> |r.kept| < |errors|
  {
    var p := e => IsReplayableFor(e, number);
    var parts := Partition(errors, p);
    PartitionHeadIsFirst(errors, p);
    Removal(parts.fail, if |parts.pass| > 0 then Some(parts.pass[0]) else None)
  }

  /** Removing a number's replayable errors works element by element, so the
      kept errors stay in their original order: it distributes over
      concatenation, and a single error is kept exactly when it is not one. */
  lemma RemoveOutgoingErrorsConcat(a: seq<ErrorRecord>, b: seq<ErrorRecord>, number: string)
    ensures RemoveOutgoingErrors(a + b, number).kept
      == RemoveOutgoingErrors(a, number).kept + RemoveOutgoingErrors(b, number).kept
    ensures RemoveOutgoingErrors(a + b, number).first
      == if RemoveOutgoingErrors(a, number).first.Some? then RemoveOutgoingErrors(a, number).first
         else RemoveOutgoingErrors(b, number).first
  {
    PartitionConcat(a, b, e => IsReplayableFor(e, number));
  }

  lemma RemoveOutgoingErrorsSingleton(e: ErrorRecord, number: string)
    ensures RemoveOutgoingErrors([e], number).kept == if IsReplayableFor(e, number) then [] else [e]
    ensures RemoveOutgoingErrors([e], number).first == if IsReplayableFor(e, number) then Some(e) else None
  {
  }

  /** Together the removed errors and the kept ones are exactly the original list. */
  lemma RemoveOutgoingErrorsIsPartition(errors: seq<ErrorRecord>, number: string)
    ensures multiset(RemoveOutgoingErrors(errors, number).kept)
      + multiset(Filter(errors, e => IsReplayableFor(e, number))) == multiset(errors)
  {
  }

  /** `hasNetworkError(number)` as written: it ignores `number` and asks
      whether the message holds ANY replayable error. */
  function HasNetworkError(errors: seq<ErrorRecord>, number: string): (r: bool)
    ensures r <==> exists i :: 0 <= i < |errors| && IsReplayableError(errors[i])
  {
    FirstIndex(errors, IsReplayableError).Some?
  }

  /** `hasNetworkError(number)` as evidently intended: a replayable error for
      that identity. */
  function HasNetworkErrorFor(errors: seq<ErrorRecord>, number: string): (r: bool)
    ensures r <==> exists i :: 0 <= i < |errors| && IsReplayableFor(errors[i], number)
  {
    FirstIndex(errors, e => IsReplayableFor(e, number)).Some?
  }

  /** The corrected test answers exactly whether a resend for `number` would
      find something to replay. */
  lemma HasNetworkErrorForPredictsResend(errors: seq<ErrorRecord>, number: string)
    ensures HasNetworkErrorFor(errors, number) <==> RemoveOutgoingErrors(errors, number).first.Some?
  {
  }

  /** As written, a network error for one identity makes the test true for
      every other identity, although a resend for that other identity replays
      nothing. */
  lemma HasNetworkErrorIgnoresNumber()
    ensures var errors := [ErrorRecord(SEND_MESSAGE_NETWORK_ERROR, "", None, Some("+A"), None, Custom, [])];
      && HasNetworkError(errors, "+B")
      && !HasNetworkErrorFor(errors, "+B")
      && RemoveOutgoingErrors(errors, "+B").first.None?
  {
    var errors := [ErrorRecord(SEND_MESSAGE_NETWORK_ERROR, "", None, Some("+A"), None, Custom, [])];
    assert IsReplayableError(errors[0]);
    assert !IsReplayableFor(errors[0], "+B");
  }

  /** What `saveErrors` receives: a single error object or an array of them. */
  datatype ErrorInput = Single(error: ErrorRecord) | Many(errors: seq<ErrorRecord>)

  function AsList(input: ErrorInput): (r: seq<ErrorRecord>)
    ensures input.Single? ==> r == [input.error]
    ensures input.Many? ==> r == input.errors
  {
    match input
    case Single(e) => [e]
    case Many(es) => es
  }

  /** The copy `saveErrors` stores: errors from the built-in constructors are
      reduced to their `name`, `message`, `code`, `number` and `reason`. */
  function Normalize(e: ErrorRecord): (r: ErrorRecord)
    ensures r.name == e.name && r.message == e.message && r.code == e.code
    ensures r.number == e.number && r.reason == e.reason
    ensures e.origin != Builtin ==> r == e
    ensures e.origin == Builtin ==> r.extra == [] && r.origin == Copied
    ensures r.origin != Builtin
  {
    if e.origin == Builtin then e.(origin := Copied, extra := []) else e
  }

  /** `saveErrors`: the new errors, normalized, in front of the existing ones. */
  function SaveErrors(input: ErrorInput, existing: seq<ErrorRecord>): (r: seq<ErrorRecord>)
    ensures |r| == |AsList(input)| + |existing|
    ensures r[|AsList(input)|..] == existing
    ensures forall i :: 0 <= i < |AsList(input)| ==>
      r[i].name == AsList(input)[i].name && r[i].number == AsList(input)[i].number
    ensures forall i :: 0 <= i < |AsList(input)| ==> r[i] == Normalize(AsList(input)[i])
    ensures forall i :: 0 <= i < |AsList(input)| && AsList(input)[i].origin != Builtin ==>
      r[i] == AsList(input)[i]
  {
    var added := AsList(input);
    seq(|added|, i requires 0 <= i < |added| => Normalize(added[i])) + existing
  }

  /** Saving keeps every conflict that was there and adds those among the new
      errors: classification survives normalization. */
  lemma SaveErrorsConflicts(input: ErrorInput, existing: seq<ErrorRecord>, number: string)
    ensures HasKeyConflict(SaveErrors(input, existing), number)
      <==> HasKeyConflict(AsList(input), number) || HasKeyConflict(existing, number)
  {
    var r := SaveErrors(input, existing);
    var k := |AsList(input)|;
    if HasKeyConflict(existing, number) {
      var i :| 0 <= i < |existing| && IsConflictFor(existing[i], number);
      assert r[k + i] == r[k..][i];
    }
    if HasKeyConflict(r, number) {
      var i :| 0 <= i < |r| && IsConflictFor(r[i], number);
      if i >= k {
        assert existing[i - k] == r[k..][i - k];
      }
    }
  }
}

=== FILE: expiration.dfy ===
/** Disappearing-message arithmetic: when a message's countdown starts, when it
    is due, and how the `expires_at` deadline gets written
    (js/models/messages.js, `markRead` through `setToExpire`). */
module Expiration {
  import opened Wrappers
  import opened Records

  /** `isExpiring`: the message has both a timer and a start time. */
  predicate IsExpiring(m: Message)
    ensures IsExpiring(m) ==> m.expireTimer > 0 && m.expirationStartTimestamp.Some? && m.expirationStartTimestamp.value > 0
    ensures m.expireTimer == 0 || m.expirationStartTimestamp.None? ==> !IsExpiring(m)
  {
    m.expireTimer != 0 && Present(m.expirationStartTimestamp)
  }

  /** The moment an expiring message is due: start plus the timer in ms. */
  function Deadline(m: Message): nat
    requires IsExpiring(m)
  {
    m.expirationStartTimestamp.value + m.expireTimer * 1000
  }

  /** What `expires_at` should say: the deadline exactly when the message is
      expiring, and nothing that counts as set otherwise. */
  predicate ExpiryConsistent(m: Message) {
    if IsExpiring(m) then m.expiresAt == Some(Deadline(m)) else !Present(m.expiresAt)
  }

  /** `msTilExpire`'s answer: `Infinity` or a number of milliseconds. */
  datatype Remaining = Infinite | Finite(ms: nat)

  /** `msTilExpire`: how long until the message is due, never negative. */
  function MsTilExpire(m: Message, now: nat): (r: Remaining)
    ensures r.Infinite? <==> !IsExpiring(m)
    ensures r.Finite? ==> (r.ms == 0 <==> Deadline(m) <= now)
    ensures r.Finite? && r.ms > 0 ==> now + r.ms == Deadline(m)
  {
    if !IsExpiring(m) then Infinite
    else
      var msFromNow := Deadline(m) - now;
      if msFromNow < 0 then Finite(0) else Finite(msFromNow)
  }

  /** The time left never grows as the clock advances. */
  lemma MsTilExpireMonotone(m: Message, now: nat, later: nat)
    requires now <= later
    requires IsExpiring(m)
    ensures MsTilExpire(m, later).ms <= MsTilExpire(m, now).ms
  {
  }

  /** `setToExpire`: writes the deadline into `expires_at` if the message is
      expiring and none is set yet; an existing deadline is never replaced. */
  function SetToExpire(m: Message): (r: Message)
    ensures r == m.(expiresAt := r.expiresAt)
    ensures Present(m.expiresAt) ==> r == m
    ensures !IsExpiring(m) ==> r == m
    ensures IsExpiring(m) && !Present(m.expiresAt) ==> r.expiresAt == Some(Deadline(m))
    ensures IsExpiring(m) ==> r.expiresAt.Some?
  {
    if IsExpiring(m) && !Present(m.expiresAt) then
      m.(expiresAt := Some(Deadline(m)))
    else m
  }

  /** A second `setToExpire` changes nothing. */
  lemma SetToExpireIdempotent(m: Message)
    ensures SetToExpire(SetToExpire(m)) == SetToExpire(m)
  {
  }

  /** A message whose deadline has not been written yet is consistent after
      `setToExpire`. */
  lemma SetToExpireEstablishesConsistency(m: Message)
    requires !Present(m.expiresAt)
    ensures ExpiryConsistent(SetToExpire(m))
  {
  }

  /** Setting `expirationStartTimestamp` fires the model's change listener,
      which runs `setToExpire` when the value actually changed. */
  function WithExpirationStart(m: Message, start: Option<nat>): (r: Message)
    ensures r.expirationStartTimestamp == start
    ensures r == m.(expirationStartTimestamp := start, expiresAt := r.expiresAt)
    ensures start == m.expirationStartTimestamp ==> r == m
    ensures (start != m.expirationStartTimestamp && m.expireTimer != 0 && Present(start)
      && !Present(m.expiresAt)) ==> r.expiresAt == Some(start.value + m.expireTimer * 1000)
    ensures (start == m.expirationStartTimestamp || m.expireTimer == 0 || !Present(start)
      || Present(m.expiresAt)) ==>
      r.expiresAt == m.expiresAt
  {
    var m' := m.(expirationStartTimestamp := start);
    if start != m.expirationStartTimestamp then SetToExpire(m') else m'
  }

  /** Setting `expireTimer` fires the same listener. */
  function WithExpireTimer(m: Message, timer: nat): (r: Message)
    ensures r.expireTimer == timer
    ensures r == m.(expireTimer := timer, expiresAt := r.expiresAt)
    ensures timer == m.expireTimer ==> r == m
    ensures (timer != m.expireTimer && timer != 0 && Present(m.expirationStartTimestamp)
      && !Present(m.expiresAt)) ==> r.expiresAt == Some(m.expirationStartTimestamp.value + timer * 1000)
    ensures (timer == m.expireTimer || timer == 0 || !Present(m.expirationStartTimestamp)
      || Present(m.expiresAt)) ==>
      r.expiresAt == m.expiresAt
  {
    var m' := m.(expireTimer := timer);
    if timer != m.expireTimer then SetToExpire(m') else m'
  }

  /** `markRead(read_at)`: clears `unread` and, for a message with a timer
      whose countdown has not started, starts it at `read_at` (or at `now`
      when `read_at` is not given). */
  function MarkRead(m: Message, readAt: Option<nat>, now: nat): (r: Message)
    ensures !r.unread
    ensures m.expireTimer == 0 || Present(m.expirationStartTimestamp) ==>
      r == m.(unread := false)
    ensures m.expireTimer != 0 && !Present(m.expirationStartTimestamp) ==>
      r.expirationStartTimestamp == Some(if Present(readAt) then readAt.value else now)
    ensures r == m.(unread := false, expirationStartTimestamp := r.expirationStartTimestamp,
      expiresAt := r.expiresAt)
    ensures ExpiryConsistent(m) ==> ExpiryConsistent(r)
  {
    var m' := m.(unread := false);
    if m.expireTimer != 0 && !Present(m.expirationStartTimestamp) then
      WithExpirationStart(m', Some(if Present(readAt) then readAt.value else now))
    else m'
  }

  /** Marking read twice is marking read once, given a real clock. */
  lemma MarkReadIdempotent(m: Message, readAt: Option<nat>, now: nat, readAt': Option<nat>, now': nat)
    requires now > 0
    ensures MarkRead(MarkRead(m, readAt, now), readAt', now') == MarkRead(m, readAt, now)
  {
  }
}

=== FILE: membership.dfy ===
/** Group membership lists as duplicate-free sequences: the `_.union`,
    `_.difference` and `_.without` the group merge uses. */
module Membership {
  import opened Seqs

  /** The elements of `s` in order of first occurrence (`_.uniq`). */
  function Uniq(s: seq<string>): (r: seq<string>)
    ensures Distinct(r)
    ensures forall x :: x in r <==> x in s
    ensures |r| <= |s|
  {
    if |s| == 0 then []
    else
      var init := s[..|s| - 1];
      var x := s[|s| - 1];
      assert s == init + [x];
      var u := Uniq(init);
      if x in u then u
      else
        AppendDistinct(u, x);
        u + [x]
  }

  lemma AppendDistinct(u: seq<string>, x: string)
    requires Distinct(u) && x !in u
    ensures Distinct(u + [x])
  {
    var t := u + [x];
    forall i, j | 0 <= i < j < |t| ensures t[i] != t[j] {
      if j == |u| {
        assert t[i] == u[i];
      } else {
        assert t[i] == u[i] && t[j] == u[j];
      }
    }
  }

  /** A list that already has no duplicates is its own `_.uniq`. */
  lemma {:induction false} UniqOfDistinct(s: seq<string>)
    requires Distinct(s)
    ensures Uniq(s) == s
  {
    if |s| > 0 {
      var init := s[..|s| - 1];
      assert Distinct(init) by {
        forall i, j | 0 <= i < j < |init| ensures init[i] != init[j] {
          assert init[i] == s[i] && init[j] == s[j];
        }
      }
      UniqOfDistinct(init);
      assert s[|s| - 1] !in init by {
        forall k | 0 <= k < |init| ensures init[k] != s[|s| - 1] {
          assert init[k] == s[k];
        }
      }
      assert s == init + [s[|s| - 1]];
    }
  }

  /** De-duplicating a longer list only appends to the de-duplicated prefix:
      first occurrences keep their place. */
  lemma {:induction false} UniqPrefix(a: seq<string>, b: seq<string>)
    ensures Uniq(a) <= Uniq(a + b)
  {
    if |b| == 0 {
      assert a + b == a;
    } else {
      var b' := b[..|b| - 1];
      UniqPrefix(a, b');
      var ab := a + b;
      assert ab[..|ab| - 1] == a + b';
    }
  }

  /** `_.union(a, b)`: every member of either list once, those of `a` first. */
  function Union(a: seq<string>, b: seq<string>): (r: seq<string>)
    ensures Distinct(r)
    ensures forall x :: x in r <==> x in a || x in b
    ensures Uniq(a) <= r
  {
    UniqPrefix(a, b);
    Uniq(a + b)
  }

  /** `_.difference(a, b)`: the elements of `a` that are not in `b`, in order. */
  function Difference(a: seq<string>, b: seq<string>): (r: seq<string>)
    ensures forall x :: x in r <==> x in a && x !in b
    ensures Distinct(a) ==> Distinct(r)
    ensures |r| <= |a|
  {
    if Distinct(a) then PartitionDistinct(a, x => x !in b); Filter(a, x => x !in b)
    else Filter(a, x => x !in b)
  }

  /** `_.without(a, x)`: `a` with every occurrence of `x` removed, in order. */
  function Without(a: seq<string>, x: string): (r: seq<string>)
    ensures forall y :: y in r <==> y in a && y != x
    ensures Distinct(a) ==> Distinct(r)
    ensures x !in a ==> r == a
    ensures x in a ==> |r| < |a|
  {
    if Distinct(a) then PartitionDistinct(a, y => y == x); Reject(a, y => y == x)
    else Reject(a, y => y == x)
  }

  /** `_.union` adds the members of its second list in their order of first
      occurrence: one more element is appended exactly when it is new. */
  lemma UnionAppend(a: seq<string>, b: seq<string>, y: string)
    ensures Union(a, b + [y]) == if y in Union(a, b) then Union(a, b) else Union(a, b) + [y]
  {
    var s := a + (b + [y]);
    assert s[..|s| - 1] == a + b;
  }

  /** `_.difference` keeps the order of its first list: it distributes over
      concatenation, and one element is kept exactly when it is not excluded. */
  lemma DifferenceConcat(a1: seq<string>, a2: seq<string>, b: seq<string>)
    ensures Difference(a1 + a2, b) == Difference(a1, b) + Difference(a2, b)
  {
    PartitionConcat(a1, a2, x => x !in b);
  }

  lemma DifferenceSingleton(x: string, b: seq<string>)
    ensures Difference([x], b) == if x in b then [] else [x]
  {
  }

  /** `_.without` keeps the order of the list: it distributes over
      concatenation, and one element is kept exactly when it is not `x`. */
  lemma WithoutConcat(a1: seq<string>, a2: seq<string>, x: string)
    ensures Without(a1 + a2, x) == Without(a1, x) + Without(a2, x)
  {
    PartitionConcat(a1, a2, y => y == x);
  }

  lemma WithoutSingleton(y: string, x: string)
    ensures Without([y], x) == if y == x then [] else [y]
  {
  }

  /** Filtering out everything leaves nothing. */
  lemma DifferenceOfCovered(t: seq<string>, b: seq<string>)
    requires forall x :: x in t ==> x in b
    ensures Difference(t, b) == []
  {
  }

  /** The members new to `b` in `_.union(a, b)`, taken in the union's order,
      are those of `a` not in `b`, in `a`'s order of first occurrence. */
  lemma {:induction false} UnionDifference(a: seq<string>, b: seq<string>)
    ensures Difference(Union(a, b), b) == Difference(Uniq(a), b)
  {
    var u := Union(a, b);
    var ua := Uniq(a);
    assert ua <= u;
    var t := u[|ua|..];
    assert u == ua + t;
    DistinctSplit(ua, t);
    assert forall x :: x in t ==> x in u;
    DifferenceConcat(ua, t, b);
    DifferenceOfCovered(t, b);
  }

  /** The two parts of a duplicate-free list share no element. */
  lemma DistinctSplit(p: seq<string>, q: seq<string>)
    requires Distinct(p + q)
    ensures forall x :: x in q ==> x !in p
  {
    forall x | x in q ensures x !in p {
      var k :| 0 <= k < |q| && q[k] == x;
      forall i | 0 <= i < |p| ensures p[i] != x {
        assert (p + q)[i] == p[i] && (p + q)[|p| + k] == q[k];
      }
    }
  }
}

=== FILE: merge.dfy ===
/** The merge step of `handleDataMessage` (js/models/messages.js): a decrypted
    data message is folded into the message record and into the conversation
    it belongs to. Receipts that arrived earlier, the local number and the
    clock are inputs; persistence, events and the job queue are outside. */
module Merge {
  import opened Wrappers
  import opened Seqs
  import opened ErrorList
  import opened Records
  import opened Membership
  import opened Expiration
  import opened Description

  /** What the merge consults besides the two records and the payload: the
      local number, the `read_at` of a read receipt already received for the
      message (if one was), the number of delivery receipts already received
      for it, and the current time. */
  datatype Context = Context(localNumber: string, readReceipt: Option<nat>, deliveryReceipts: nat, now: nat)

  /** A call of the conversation's `updateExpirationTimer`, whose effect is
      outside the model: the new timer (None for null), who set it and when. */
  datatype TimerCall = TimerCall(expireTimer: Option<nat>, source: string, receivedAt: nat)

  /** The merged records, the timer call the merge asks for, and whether the
      conversation is asked to notify about the message. */
  datatype Merged = Merged(conversation: Conversation, message: Message, timerCall: Option<TimerCall>, notify: bool)

  /** The conversation a payload belongs to: its group, or else the one the
      message already names. */
  function TargetConversationId(m: Message, payload: DataMessage): (r: string)
    ensures payload.group.Some? ==> r == payload.group.value.id
    ensures payload.group.None? ==> r == m.conversationId
  {
    if payload.group.Some? then payload.group.value.id else m.conversationId
  }

  /** A conversation after the group part of the merge, and the `group_update`
      summary to attach to the message (None when there is none). */
  datatype GroupChange = GroupChange(conversation: Conversation, update: Option<GroupUpdate>)

  /** The new members of an UPDATE that were not members before (none when
      nobody joined). */
  function Joined(c: Conversation, g: GroupContext): (r: Option<seq<string>>)
    ensures r.None? <==> forall x :: x in g.members ==> x in c.members
    ensures r.Some? ==> r.value == Difference(Uniq(g.members), c.members)
  {
    var joined := Difference(Union(g.members, c.members), c.members);
    UnionDifference(g.members, c.members);
    if |joined| > 0 then Some(joined) else None
  }

  /** The group part of the merge. UPDATE: members become the union of the
      payload's and the current members, name and avatar are overwritten, and
      the summary records what changed and who joined. QUIT: the sender is
      removed, and the summary says who left ("You" for the local number). */
  function ApplyGroup(c: Conversation, g: GroupContext, source: string, localNumber: string): (r: GroupChange)
    ensures r.conversation.kind == Group && r.conversation.groupId == Some(g.id)
    ensures r.conversation == c.(kind := Group, groupId := Some(g.id), name := r.conversation.name,
      avatar := r.conversation.avatar, members := r.conversation.members, left := r.conversation.left)
    ensures g.kind == Update ==>
      && r.conversation.members == Union(g.members, c.members)
      && r.update.Some? && r.update.value.joined == Joined(c, g)
      && r.conversation.name == g.name && r.conversation.avatar == g.avatar
      && r.conversation.left == c.left
      && r.update.Some? && r.update.value.left.None?
    ensures g.kind == Update ==>
      && (r.update.value.joined.Some? <==> exists x :: x in g.members && x !in c.members)
      && (r.update.value.joined.Some? ==>
            Distinct(r.update.value.joined.value)
            && forall x :: x in r.update.value.joined.value <==> x in g.members && x !in c.members)
    ensures g.kind == Update ==>
      && (r.update.value.name.Some? ==> g.name != c.name && r.update.value.name == g.name)
      && (g.name.Some? && g.name != c.name ==> r.update.value.name == g.name)
      && (r.update.value.avatar.Some? ==> g.avatar != c.avatar && r.update.value.avatar == g.avatar)
      && (g.avatar.Some? && g.avatar != c.avatar ==> r.update.value.avatar == g.avatar)
    ensures g.kind == Quit ==>
      && (forall x :: x in r.conversation.members <==> x in c.members && x != source)
      && r.conversation.members == Without(c.members, source)
      && (Distinct(c.members) ==> Distinct(r.conversation.members))
      && (source !in c.members ==> r.conversation.members == c.members)
      && r.conversation.name == c.name && r.conversation.avatar == c.avatar
      && r.conversation.left == (source == localNumber || c.left)
      && r.update == Some(GroupUpdate(None, None, None, Some(if source == localNumber then "You" else source)))
    ensures g.kind == Deliver ==> r == GroupChange(c.(kind := Group, groupId := Some(g.id)), None)
  {
    match g.kind
    case Update =>
      var members := Union(g.members, c.members);
      var update := GroupUpdate(
        if g.name != c.name then g.name else None,
        if g.avatar != c.avatar then g.avatar else None,
        Joined(c, g),
        None);
      GroupChange(
        c.(kind := Group, groupId := Some(g.id), name := g.name, avatar := g.avatar, members := members),
        Some(update))
    case Quit =>
      var left := if source == localNumber then "You" else source;
      GroupChange(
        c.(kind := Group, groupId := Some(g.id), members := Without(c.members, source),
           left := if source == localNumber then true else c.left),
        Some(GroupUpdate(None, None, None, Some(left))))
    case Deliver =>
      GroupChange(c.(kind := Group, groupId := Some(g.id)), None)
  }

  /** The two records as the merge goes along. */
  datatype State = State(message: Message, conversation: Conversation)

  /** The payload's content replaces the message's; earlier errors are
      dropped, and a new group summary replaces any earlier one. */
  function CopyContent(m: Message, payload: DataMessage, update: Option<GroupUpdate>,
                       conversationId: string, now: nat): (r: Message)
    ensures r.body == payload.body && r.attachments == payload.attachments && r.flags == payload.flags
    ensures r.errors == [] && r.conversationId == conversationId && r.decryptedAt == Some(now)
    ensures update.Some? ==> r.groupUpdate == update
    ensures update.None? ==> r.groupUpdate == m.groupUpdate
    ensures r == m.(groupUpdate := r.groupUpdate, body := r.body, conversationId := r.conversationId,
      attachments := r.attachments, decryptedAt := r.decryptedAt, flags := r.flags, errors := r.errors)
  {
    m.(groupUpdate := if update.Some? then update else m.groupUpdate,
       body := payload.body,
       conversationId := conversationId,
       attachments := payload.attachments,
       decryptedAt := Some(now),
       flags := payload.flags,
       errors := [])
  }

  /** Timer bookkeeping on the records: a timer-update message records who
      set which timer and makes it the conversation's; any other message with
      a timer takes it on. */
  function ApplyTimer(s: State, payload: DataMessage): (r: State)
    ensures s.message.IsExpirationTimerUpdate() ==>
      && r.conversation == s.conversation.(expireTimer := payload.expireTimer)
      && r.message == s.message.(expirationTimerUpdate := Some(TimerUpdate(s.message.source, payload.expireTimer)))
    ensures !s.message.IsExpirationTimerUpdate() && payload.expireTimer != 0 ==>
      && r.conversation == s.conversation
      && r.message.expireTimer == payload.expireTimer
      && r.message == s.message.(expireTimer := payload.expireTimer, expiresAt := r.message.expiresAt)
    ensures !s.message.IsExpirationTimerUpdate() && payload.expireTimer == 0 ==> r == s
    ensures (!s.message.IsExpirationTimerUpdate() && payload.expireTimer != 0
      && payload.expireTimer != s.message.expireTimer && Present(s.message.expirationStartTimestamp)
      && !Present(s.message.expiresAt)) ==>
      r.message.expiresAt == Some(s.message.expirationStartTimestamp.value + payload.expireTimer * 1000)
    ensures (s.message.IsExpirationTimerUpdate() || payload.expireTimer == 0
      || payload.expireTimer == s.message.expireTimer || !Present(s.message.expirationStartTimestamp)
      || Present(s.message.expiresAt)) ==>
      r.message.expiresAt == s.message.expiresAt
  {
    var m := s.message;
    if m.IsExpirationTimerUpdate() then
      State(m.(expirationTimerUpdate := Some(TimerUpdate(m.source, payload.expireTimer))),
            s.conversation.(expireTimer := payload.expireTimer))
    else if payload.expireTimer != 0 then
      State(WithExpireTimer(m, payload.expireTimer), s.conversation)
    else s
  }

  /** Whether the merge calls `updateExpirationTimer`: only for a message
      that is neither an end-session nor a group update, and only when the
      payload's timer differs from the conversation's (a payload without a
      timer turns a set conversation timer off). */
  function TimerDecision(s: State, payload: DataMessage): (r: Option<TimerCall>)
    ensures r.None? <==> (s.message.IsEndSession() || s.message.IsGroupUpdate()
      || payload.expireTimer == s.conversation.expireTimer)
    ensures r.Some? ==> r.value.source == s.message.source && r.value.receivedAt == s.message.receivedAt
    ensures r.Some? ==> r.value.expireTimer == if payload.expireTimer != 0 then Some(payload.expireTimer) else None
  {
    var m := s.message;
    if !m.IsEndSession() && !m.IsGroupUpdate() then
      if payload.expireTimer != 0 then
        if payload.expireTimer != s.conversation.expireTimer then
          Some(TimerCall(Some(payload.expireTimer), m.source, m.receivedAt))
        else None
      else if s.conversation.expireTimer != 0 then
        Some(TimerCall(None, m.source, m.receivedAt))
      else None
    else None
  }

  /** Unread accounting for an incoming message: a read receipt (which also
      starts a pending countdown at its `read_at`) or a timer update marks it
      read; otherwise the conversation's unread count goes up by one. */
  function ApplyUnread(s: State, readReceipt: Option<nat>): (r: State)
    ensures !s.message.IsIncoming() ==> r == s
    ensures r.conversation == s.conversation.(unreadCount := r.conversation.unreadCount)
    ensures r.message == s.message.(unread := r.message.unread,
      expirationStartTimestamp := r.message.expirationStartTimestamp, expiresAt := r.message.expiresAt)
    ensures s.message.IsIncoming() && (readReceipt.Some? || s.message.IsExpirationTimerUpdate()) ==>
      !r.message.unread && r.conversation.unreadCount == s.conversation.unreadCount
    ensures s.message.IsIncoming() && readReceipt.None? && !s.message.IsExpirationTimerUpdate() ==>
      r.message.unread == s.message.unread && r.conversation.unreadCount == s.conversation.unreadCount + 1
    ensures Present(s.message.expirationStartTimestamp) || s.message.expireTimer == 0 || readReceipt.None? ==>
      r.message.expirationStartTimestamp == s.message.expirationStartTimestamp
      && r.message.expiresAt == s.message.expiresAt
    ensures (s.message.IsIncoming() && readReceipt.Some? && s.message.expireTimer != 0
      && !Present(s.message.expirationStartTimestamp)) ==>
      r.message.expirationStartTimestamp == readReceipt
    ensures (s.message.IsIncoming() && Present(readReceipt) && s.message.expireTimer != 0
      && !Present(s.message.expirationStartTimestamp) && !Present(s.message.expiresAt)) ==>
      r.message.expiresAt == Some(readReceipt.value + s.message.expireTimer * 1000)
    ensures (!s.message.IsIncoming() || !Present(readReceipt) || s.message.expireTimer == 0
      || Present(s.message.expirationStartTimestamp) || Present(s.message.expiresAt)) ==>
      r.message.expiresAt == s.message.expiresAt
  {
    var m := s.message;
    if m.IsIncoming() then
      var m1 := if readReceipt.Some? && m.expireTimer != 0 && !Present(m.expirationStartTimestamp)
        then WithExpirationStart(m, readReceipt) else m;
      if readReceipt.Some? || m1.IsExpirationTimerUpdate() then State(m1.(unread := false), s.conversation)
      else State(m1, s.conversation.(unreadCount := s.conversation.unreadCount + 1))
    else s
  }

  /** Whether a message may replace the conversation's preview: when the
      conversation has no (non-zero) timestamp or the message is strictly
      newer. */
  predicate Newer(c: Conversation, m: Message) {
    !Present(c.timestamp) || m.sentAt > c.timestamp.value
  }

  /** The preview rule: the last message and timestamp change exactly when
      the message is newer; equal or older messages never overwrite. */
  function UpdatePreview(c: Conversation, m: Message): (r: Conversation)
    requires NotificationTextDefined(m)
    ensures Newer(c, m) ==> r == c.(lastMessage := Some(NotificationText(m)), timestamp := Some(m.sentAt))
    ensures !Newer(c, m) ==> r == c
    ensures Present(c.timestamp) ==> Present(r.timestamp) && r.timestamp.value >= c.timestamp.value
  {
    if Newer(c, m) then c.(lastMessage := Some(NotificationText(m)), timestamp := Some(m.sentAt))
    else c
  }

  /** Whether merging the payload adds one to the conversation's unread
      count: an incoming message with no read receipt that is not a timer
      update. */
  predicate CountsUnread(m: Message, payload: DataMessage, readReceipt: Option<nat>) {
    m.IsIncoming() && readReceipt.None? && !HasFlag(payload.flags, EXPIRATION_TIMER_UPDATE)
  }

  /** The first half of the merge: group merge, content copy, delivery
      receipts for an outgoing message, and the activity time. */
  function Prepare(c: Conversation, m: Message, payload: DataMessage, ctx: Context): (r: State)
    ensures r.conversation == c.(kind := r.conversation.kind, groupId := r.conversation.groupId,
      name := r.conversation.name, avatar := r.conversation.avatar, members := r.conversation.members,
      left := r.conversation.left, activeAt := Some(ctx.now))
    ensures r.message == m.(groupUpdate := r.message.groupUpdate, body := payload.body, conversationId := c.id,
      attachments := payload.attachments, decryptedAt := Some(ctx.now), flags := payload.flags, errors := [],
      delivered := r.message.delivered)
    ensures r.message.delivered == m.delivered + (if m.direction == Outgoing then ctx.deliveryReceipts else 0)
    ensures payload.group.None? ==> r.conversation == c.(kind := Private, activeAt := Some(ctx.now))
    ensures payload.group.None? ==> r.message.groupUpdate == m.groupUpdate
    ensures payload.group.Some? ==> r.conversation.kind == Group && r.conversation.groupId == Some(payload.group.value.id)
  {
    var group := if payload.group.Some? then ApplyGroup(c, payload.group.value, m.source, ctx.localNumber)
      else GroupChange(c.(kind := Private), None);
    var m1 := CopyContent(m, payload, group.update, c.id, ctx.now);
    var m2 := if m.direction == Outgoing then m1.(delivered := m1.delivered + ctx.deliveryReceipts) else m1;
    State(m2, group.conversation.(activeAt := Some(ctx.now)))
  }

  /** The second half of the merge: timer policy, unread accounting and the
      preview. */
  function Settle(s: State, payload: DataMessage, readReceipt: Option<nat>): (r: Merged)
    requires s.message.flags == payload.flags
    ensures r.conversation.id == s.conversation.id
    ensures r.message.conversationId == s.message.conversationId
    ensures r.conversation.unreadCount == s.conversation.unreadCount
      + (if CountsUnread(s.message, payload, readReceipt) then 1 else 0)
    ensures Present(s.conversation.timestamp) ==>
      Present(r.conversation.timestamp)
      && r.conversation.timestamp.value >= s.conversation.timestamp.value
    ensures r.message == s.message.(expirationTimerUpdate := r.message.expirationTimerUpdate,
      expireTimer := r.message.expireTimer, expirationStartTimestamp := r.message.expirationStartTimestamp,
      expiresAt := r.message.expiresAt, unread := r.message.unread)
    ensures !s.message.IsIncoming() ==> r.message.unread == s.message.unread
    ensures Present(s.message.expiresAt) ==> r.message.expiresAt == s.message.expiresAt
    ensures (ExpiryConsistent(s.message) && !Present(s.message.expirationStartTimestamp)) ==>
      ExpiryConsistent(r.message)
  {
    var timed := ApplyTimer(s, payload);
    var call := TimerDecision(timed, payload);
    var read := ApplyUnread(timed, readReceipt);
    TimerAndUnreadFrame(s, payload, readReceipt);
    TimerAndUnreadDeadline(s, payload, readReceipt);
    var c := UpdatePreview(read.conversation, read.message);
    Merged(c, read.message, call, read.message.unread)
  }

  /** The message after the timer step and the unread step: only the timer
      fields, the countdown and `unread` change, and `unread` only for an
      incoming message. */
  lemma TimerAndUnreadFrame(s: State, payload: DataMessage, readReceipt: Option<nat>)
    ensures var r := ApplyUnread(ApplyTimer(s, payload), readReceipt).message;
      && r == s.message.(expirationTimerUpdate := r.expirationTimerUpdate, expireTimer := r.expireTimer,
           expirationStartTimestamp := r.expirationStartTimestamp, expiresAt := r.expiresAt, unread := r.unread)
      && (!s.message.IsIncoming() ==> r.unread == s.message.unread)
  {
    var timed := ApplyTimer(s, payload).message;
    assert timed == s.message.(expirationTimerUpdate := timed.expirationTimerUpdate, expireTimer := timed.expireTimer,
      expiresAt := timed.expiresAt);
    assert timed.IsIncoming() == s.message.IsIncoming();
  }

  /** The deadline after the timer step and the unread step: a written one
      stays, and a message whose countdown had not started leaves them
      consistent. */
  lemma TimerAndUnreadDeadline(s: State, payload: DataMessage, readReceipt: Option<nat>)
    ensures var r := ApplyUnread(ApplyTimer(s, payload), readReceipt).message;
      && (Present(s.message.expiresAt) ==> r.expiresAt == s.message.expiresAt)
      && (ExpiryConsistent(s.message) && !Present(s.message.expirationStartTimestamp) ==> ExpiryConsistent(r))
  {
    var timed := ApplyTimer(s, payload);
    assert timed.message.expirationStartTimestamp == s.message.expirationStartTimestamp;
    if ExpiryConsistent(s.message) && !Present(s.message.expirationStartTimestamp) {
      assert !Present(timed.message.expiresAt);
    }
  }

  /** `handleDataMessage`'s job body: group merge, content copy, delivery
      receipts, timer policy, unread accounting and preview, in that order.
      Of the message it writes only those attributes; sent, synced, the raw
      data message, the times and the sender stay as they were. */
  function Merge(c: Conversation, m: Message, payload: DataMessage, ctx: Context): (r: Merged)
    ensures r.conversation.id == c.id && r.message.conversationId == c.id
    ensures r.conversation.unreadCount == c.unreadCount + (if CountsUnread(m, payload, ctx.readReceipt) then 1 else 0)
    ensures Present(c.timestamp) ==>
      Present(r.conversation.timestamp)
      && r.conversation.timestamp.value >= c.timestamp.value
    ensures r.message == m.(groupUpdate := r.message.groupUpdate, body := r.message.body,
      conversationId := r.message.conversationId, attachments := r.message.attachments,
      decryptedAt := r.message.decryptedAt, flags := r.message.flags, errors := r.message.errors,
      delivered := r.message.delivered, expirationTimerUpdate := r.message.expirationTimerUpdate,
      expireTimer := r.message.expireTimer, expirationStartTimestamp := r.message.expirationStartTimestamp,
      expiresAt := r.message.expiresAt, unread := r.message.unread)
    ensures !m.IsIncoming() ==> r.message.unread == m.unread
    ensures Present(m.expiresAt) ==> r.message.expiresAt == m.expiresAt
    ensures (ExpiryConsistent(m) && !Present(m.expirationStartTimestamp)) ==> ExpiryConsistent(r.message)
  {
    Settle(Prepare(c, m, payload, ctx), payload, ctx.readReceipt)
  }

  /** An UPDATE leaves the conversation with every old and every announced
      member once, the announced ones first, the group's new name and avatar,
      and a summary on the message naming exactly the members who joined. */
  lemma MergeUpdatesGroup(c: Conversation, m: Message, payload: DataMessage, ctx: Context)
    requires payload.group.Some? && payload.group.value.kind == Update
    ensures var r := Merge(c, m, payload, ctx); var g := payload.group.value;
      && r.conversation.kind == Group && r.conversation.groupId == Some(g.id)
      && Distinct(r.conversation.members)
      && (forall x :: x in r.conversation.members <==> x in g.members || x in c.members)
      && Uniq(g.members) <= r.conversation.members
      && r.conversation.members == Union(g.members, c.members)
      && r.conversation.name == g.name && r.conversation.avatar == g.avatar
      && r.message.groupUpdate.Some? && r.message.groupUpdate.value.left.None?
      && (r.message.groupUpdate.value.joined.Some? <==> exists x :: x in g.members && x !in c.members)
      && (r.message.groupUpdate.value.joined.Some? ==>
            r.message.groupUpdate.value.joined.value == Difference(Uniq(g.members), c.members))
  {
    MergeGroupPart(c, m, payload, ctx);
  }

  /** A QUIT removes the sender from the members; when the sender is the
      local user the conversation is marked left and the summary says "You". */
  lemma MergeQuitsGroup(c: Conversation, m: Message, payload: DataMessage, ctx: Context)
    requires payload.group.Some? && payload.group.value.kind == Quit
    ensures var r := Merge(c, m, payload, ctx);
      && (forall x :: x in r.conversation.members <==> x in c.members && x != m.source)
      && r.conversation.members == Without(c.members, m.source)
      && (Distinct(c.members) ==> Distinct(r.conversation.members))
      && r.conversation.left == (m.source == ctx.localNumber || c.left)
      && r.message.groupUpdate == Some(GroupUpdate(None, None, None,
           Some(if m.source == ctx.localNumber then "You" else m.source)))
  {
    MergeGroupPart(c, m, payload, ctx);
  }

  /** The merged message carries the payload's content, no earlier errors,
      the decryption time, and (only when outgoing) the delivery receipts
      that arrived before it. */
  lemma MergeCopiesContent(c: Conversation, m: Message, payload: DataMessage, ctx: Context)
    ensures var r := Merge(c, m, payload, ctx);
      && r.message.body == payload.body && r.message.attachments == payload.attachments
      && r.message.flags == payload.flags && r.message.errors == []
      && r.message.decryptedAt == Some(ctx.now)
      && r.message.delivered == m.delivered + (if m.direction == Outgoing then ctx.deliveryReceipts else 0)
      && r.message.sentAt == m.sentAt && r.message.source == m.source
      && r.conversation.activeAt == Some(ctx.now)
  {
  }

  /** The timer policy: `updateExpirationTimer` is asked for exactly when the
      message is neither an end-session, a group update nor a timer update,
      and the payload's timer differs from the conversation's. */
  lemma MergeTimerPolicy(c: Conversation, m: Message, payload: DataMessage, ctx: Context)
    ensures var r := Merge(c, m, payload, ctx);
      (r.timerCall.None? <==> (HasFlag(payload.flags, END_SESSION) || r.message.IsGroupUpdate()
        || HasFlag(payload.flags, EXPIRATION_TIMER_UPDATE) || payload.expireTimer == c.expireTimer))
    ensures var r := Merge(c, m, payload, ctx);
      r.timerCall.Some? ==>
        && r.timerCall.value.expireTimer == (if payload.expireTimer != 0 then Some(payload.expireTimer) else None)
        && r.timerCall.value.source == m.source && r.timerCall.value.receivedAt == m.receivedAt
  {
    var s := Prepare(c, m, payload, ctx);
    var timed := ApplyTimer(s, payload);
    assert s.conversation.expireTimer == c.expireTimer;
    assert timed.message.groupUpdate == s.message.groupUpdate;
    var read := ApplyUnread(timed, ctx.readReceipt);
    assert read.message.groupUpdate == timed.message.groupUpdate;
  }

  /** A timer-update message makes its timer the conversation's, records who
      set it, and is never unread. */
  lemma MergeTimerUpdate(c: Conversation, m: Message, payload: DataMessage, ctx: Context)
    requires HasFlag(payload.flags, EXPIRATION_TIMER_UPDATE)
    ensures var r := Merge(c, m, payload, ctx);
      && r.conversation.expireTimer == payload.expireTimer
      && r.message.expirationTimerUpdate == Some(TimerUpdate(m.source, payload.expireTimer))
      && r.timerCall.None?
      && (m.IsIncoming() ==> !r.notify)
  {
    MergeTimerPolicy(c, m, payload, ctx);
  }

  /** Any other message with a timer takes the payload's timer; one without
      keeps its own. */
  lemma MergeTakesTimer(c: Conversation, m: Message, payload: DataMessage, ctx: Context)
    requires !HasFlag(payload.flags, EXPIRATION_TIMER_UPDATE)
    ensures var r := Merge(c, m, payload, ctx);
      && r.conversation.expireTimer == c.expireTimer
      && r.message.expirationTimerUpdate == m.expirationTimerUpdate
      && r.message.expireTimer == (if payload.expireTimer != 0 then payload.expireTimer else m.expireTimer)
  {
  }

  /** A read receipt that arrived first marks an incoming message read and
      starts its countdown at the receipt's `read_at` if it had not started;
      a countdown already running is never restarted. */
  lemma MergeReadReceipt(c: Conversation, m: Message, payload: DataMessage, ctx: Context)
    requires m.IsIncoming() && ctx.readReceipt.Some?
    ensures var r := Merge(c, m, payload, ctx);
      && !r.message.unread && !r.notify
      && r.conversation.unreadCount == c.unreadCount
      && (Present(m.expirationStartTimestamp) ==> r.message.expirationStartTimestamp == m.expirationStartTimestamp)
      && (!Present(m.expirationStartTimestamp) && r.message.expireTimer != 0 ==>
            r.message.expirationStartTimestamp == ctx.readReceipt)
      && ((!Present(m.expirationStartTimestamp) && !Present(m.expiresAt) && r.message.expireTimer != 0
            && Present(ctx.readReceipt)) ==>
            r.message.expiresAt == Some(ctx.readReceipt.value + r.message.expireTimer * 1000))
  {
    var timed := ApplyTimer(Prepare(c, m, payload, ctx), payload);
    MergeMessageSteps(c, m, payload, ctx);
    ReadReceiptCountdown(timed, m, ctx.readReceipt);
  }

  /** The unread step on a message whose countdown state is still `m`'s: a
      read receipt marks it read and starts a pending countdown at `read_at`,
      with the deadline the change listener writes. */
  lemma ReadReceiptCountdown(timed: State, m: Message, readReceipt: Option<nat>)
    requires timed.message.IsIncoming() && readReceipt.Some?
    requires timed.message.expirationStartTimestamp == m.expirationStartTimestamp
    requires !Present(m.expirationStartTimestamp) ==> timed.message.expiresAt == m.expiresAt
    ensures var r := ApplyUnread(timed, readReceipt).message;
      && !r.unread
      && (Present(m.expirationStartTimestamp) ==> r.expirationStartTimestamp == m.expirationStartTimestamp)
      && (!Present(m.expirationStartTimestamp) && r.expireTimer != 0 ==>
            r.expirationStartTimestamp == readReceipt)
      && ((!Present(m.expirationStartTimestamp) && !Present(m.expiresAt) && r.expireTimer != 0
            && Present(readReceipt)) ==>
            r.expiresAt == Some(readReceipt.value + r.expireTimer * 1000))
  {
  }

  /** The merged message is the prepared one after the timer step and the
      unread step. */
  lemma MergeMessageSteps(c: Conversation, m: Message, payload: DataMessage, ctx: Context)
    ensures var s := Prepare(c, m, payload, ctx);
      && Merge(c, m, payload, ctx).message == ApplyUnread(ApplyTimer(s, payload), ctx.readReceipt).message
      && Merge(c, m, payload, ctx).notify == Merge(c, m, payload, ctx).message.unread
      && ApplyTimer(s, payload).message.IsIncoming() == m.IsIncoming()
      && ApplyTimer(s, payload).message.expirationStartTimestamp == m.expirationStartTimestamp
      && (!Present(m.expirationStartTimestamp) ==> ApplyTimer(s, payload).message.expiresAt == m.expiresAt)
  {
  }

  /** A read receipt that arrived before the message starts the countdown of
      a message that takes a timer from the payload, and the change listener
      writes the deadline: `read_at` plus the timer in milliseconds. */
  lemma MergeReadReceiptDeadline(c: Conversation, m: Message, payload: DataMessage, ctx: Context)
    requires m.IsIncoming() && !HasFlag(payload.flags, EXPIRATION_TIMER_UPDATE) && payload.expireTimer != 0
    requires Present(ctx.readReceipt)
    requires !Present(m.expirationStartTimestamp) && !Present(m.expiresAt)
    ensures var r := Merge(c, m, payload, ctx).message;
      && r.expireTimer == payload.expireTimer
      && r.expirationStartTimestamp == ctx.readReceipt
      && r.expiresAt == Some(ctx.readReceipt.value + payload.expireTimer * 1000)
      && ExpiryConsistent(r)
  {
    MergeReadReceipt(c, m, payload, ctx);
    MergeTakesTimer(c, m, payload, ctx);
  }

  /** The worked case: a thirty-second timer and a read receipt at `t` give a
      deadline of `t + 30000`. */
  lemma ThirtySecondScenario(c: Conversation, m: Message, payload: DataMessage, ctx: Context, t: nat)
    requires m.IsIncoming() && payload.flags == 0 && payload.expireTimer == 30
    requires ctx.readReceipt == Some(t) && t > 0
    requires m.expirationStartTimestamp.None? && m.expiresAt.None?
    ensures Merge(c, m, payload, ctx).message.expiresAt == Some(t + 30000)
  {
    MergeReadReceiptDeadline(c, m, payload, ctx);
  }

  /** The conversation is asked to notify exactly when the merged message is
      still unread; an incoming message that counts as unread keeps its flag. */
  lemma MergeNotifies(c: Conversation, m: Message, payload: DataMessage, ctx: Context)
    ensures var r := Merge(c, m, payload, ctx);
      && (r.notify <==> r.message.unread)
      && (CountsUnread(m, payload, ctx.readReceipt) ==> r.notify == m.unread)
      && (m.IsIncoming() && !CountsUnread(m, payload, ctx.readReceipt) ==> !r.notify)
  {
  }

  /** The preview takes the merged message's notification text and sent time
      exactly when the message is newer than the conversation's preview. */
  lemma MergePreview(c: Conversation, m: Message, payload: DataMessage, ctx: Context)
    ensures var r := Merge(c, m, payload, ctx);
      && (Newer(c, m) ==>
            && NotificationTextDefined(r.message)
            && r.conversation.lastMessage == Some(NotificationText(r.message))
            && r.conversation.timestamp == Some(m.sentAt))
      && (!Newer(c, m) ==> r.conversation.lastMessage == c.lastMessage && r.conversation.timestamp == c.timestamp)
  {
  }

  /** Merging the same message again (with a real sent time) leaves the
      preview as the first merge left it. */
  lemma MergePreviewStable(c: Conversation, m: Message, payload: DataMessage, ctx: Context, ctx': Context)
    requires m.sentAt > 0
    ensures var r := Merge(c, m, payload, ctx); var r' := Merge(r.conversation, m, payload, ctx');
      r'.conversation.lastMessage == r.conversation.lastMessage
      && r'.conversation.timestamp == r.conversation.timestamp
  {
    var r := Merge(c, m, payload, ctx);
    MergePreview(c, m, payload, ctx);
    assert !Newer(r.conversation, m);
    MergePreview(r.conversation, m, payload, ctx');
  }

  /** One received message: the record, its payload and what the merge
      consults. */
  datatype Delivery = Delivery(message: Message, payload: DataMessage, ctx: Context)

  /** The conversation after merging a run of messages, oldest first (the
      conversation's job queue runs them one at a time). */
  function MergeAll(c: Conversation, ds: seq<Delivery>): (r: Conversation)
    ensures r.id == c.id
    ensures r.unreadCount >= c.unreadCount
    decreases |ds|
  {
    if |ds| == 0 then c
    else MergeAll(Merge(c, ds[0].message, ds[0].payload, ds[0].ctx).conversation, ds[1..])
  }

  /** How many of the messages count as unread. */
  function ExpectedUnread(ds: seq<Delivery>): (r: nat)
    ensures r <= |ds|
    ensures (forall i :: 0 <= i < |ds| ==> !ds[i].message.IsIncoming()) ==> r == 0
  {
    if |ds| == 0 then 0
    else (if CountsUnread(ds[0].message, ds[0].payload, ds[0].ctx.readReceipt) then 1 else 0) + ExpectedUnread(ds[1..])
  }

  /** The unread count grows by exactly the number of messages that count as
      unread; the conversation keeps its id; its preview time never goes back. */
  lemma {:induction false} MergeAllAccounts(c: Conversation, ds: seq<Delivery>)
    ensures MergeAll(c, ds).unreadCount == c.unreadCount + ExpectedUnread(ds)
    ensures MergeAll(c, ds).id == c.id
    ensures Present(c.timestamp) ==>
      Present(MergeAll(c, ds).timestamp) && MergeAll(c, ds).timestamp.value >= c.timestamp.value
    decreases |ds|
  {
    if |ds| > 0 {
      var c1 := Merge(c, ds[0].message, ds[0].payload, ds[0].ctx).conversation;
      MergeAllAccounts(c1, ds[1..]);
    }
  }

  /** The members of the worked UPDATE below: the union keeps A, B, C once
      each. */
  lemma {:induction false} UpdateScenarioUnion()
    ensures Union(["A", "B", "C"], ["A", "B"]) == ["A", "B", "C"]
  {
    var abc := ["A", "B", "C"];
    UniqOfDistinct(abc);
    var abca := abc + ["A"];
    assert abca[..|abca| - 1] == abc;
    assert Uniq(abca) == abc;
    var all := abc + ["A", "B"];
    assert all == abca + ["B"];
    assert all[..|all| - 1] == abca;
  }

  /** In the worked UPDATE below, C alone is new. */
  lemma {:induction false} UpdateScenarioJoined()
    ensures Difference(["A", "B", "C"], ["A", "B"]) == ["C"]
  {
    var joined := Difference(["A", "B", "C"], ["A", "B"]);
    assert "C" in joined;
    assert forall x :: x in joined ==> x == "C";
    assert Distinct(joined);
  }

  /** With a group context, the merged conversation's group fields are
      exactly those of the group part, and the message takes its summary when
      there is one (a DELIVER has none and keeps the message's). */
  lemma MergeGroupPart(c: Conversation, m: Message, payload: DataMessage, ctx: Context)
    requires payload.group.Some?
    ensures var r := Merge(c, m, payload, ctx); var group := ApplyGroup(c, payload.group.value, m.source, ctx.localNumber);
      && r.conversation.kind == group.conversation.kind && r.conversation.groupId == group.conversation.groupId
      && r.conversation.name == group.conversation.name && r.conversation.avatar == group.conversation.avatar
      && r.conversation.members == group.conversation.members
      && r.conversation.left == group.conversation.left
      && r.message.groupUpdate == if group.update.Some? then group.update else m.groupUpdate
  {
    var group := ApplyGroup(c, payload.group.value, m.source, ctx.localNumber);
    var s := Prepare(c, m, payload, ctx);
    assert s.conversation.kind == group.conversation.kind && s.conversation.groupId == group.conversation.groupId;
    assert s.conversation.name == group.conversation.name && s.conversation.avatar == group.conversation.avatar;
    assert s.conversation.members == group.conversation.members;
    assert s.conversation.left == group.conversation.left;
    assert s.message.groupUpdate == if group.update.Some? then group.update else m.groupUpdate;
    SettleKeepsGroup(s, payload, ctx.readReceipt);
  }

  /** Without a group context the conversation becomes a private one and
      keeps its group fields; the message keeps its summary. */
  lemma MergeWithoutGroup(c: Conversation, m: Message, payload: DataMessage, ctx: Context)
    requires payload.group.None?
    ensures var r := Merge(c, m, payload, ctx);
      && r.conversation.kind == Private && r.conversation.groupId == c.groupId
      && r.conversation.name == c.name && r.conversation.avatar == c.avatar
      && r.conversation.members == c.members && r.conversation.left == c.left
      && r.message.groupUpdate == m.groupUpdate
  {
    SettleKeepsGroup(Prepare(c, m, payload, ctx), payload, ctx.readReceipt);
  }

  /** Run on the conversation the payload names, the merge leaves the message
      in it: the group's conversation for a group message, and otherwise the
      one the message already named. */
  lemma MergeIntoTarget(c: Conversation, m: Message, payload: DataMessage, ctx: Context)
    requires c.id == TargetConversationId(m, payload)
    ensures var r := Merge(c, m, payload, ctx);
      && r.conversation.id == TargetConversationId(m, payload)
      && r.message.conversationId == TargetConversationId(m, payload)
      && (payload.group.Some? ==>
            (r.conversation.id == payload.group.value.id && r.conversation.groupId == Some(payload.group.value.id)))
      && (payload.group.None? ==> r.message.conversationId == m.conversationId)
  {
    if payload.group.Some? {
      MergeGroupPart(c, m, payload, ctx);
    }
  }

  /** The second half of the merge does not touch the group fields of the
      conversation or the message's group summary. */
  lemma SettleKeepsGroup(s: State, payload: DataMessage, readReceipt: Option<nat>)
    requires s.message.flags == payload.flags
    ensures var r := Settle(s, payload, readReceipt);
      && r.conversation.kind == s.conversation.kind && r.conversation.groupId == s.conversation.groupId
      && r.conversation.name == s.conversation.name && r.conversation.avatar == s.conversation.avatar
      && r.conversation.members == s.conversation.members && r.conversation.left == s.conversation.left
      && r.message.groupUpdate == s.message.groupUpdate
  {
    var timed := ApplyTimer(s, payload);
    var read := ApplyUnread(timed, readReceipt);
    assert read.message.groupUpdate == s.message.groupUpdate;
  }

  /** A worked UPDATE: a group of A and B hears of A, B and C under the name
      "Team"; C has joined and the title changed. */
  lemma UpdateScenario(c: Conversation, m: Message, payload: DataMessage, ctx: Context)
    requires c.members == ["A", "B"] && c.name == None
    requires payload.group == Some(GroupContext("g", Update, Some("Team"), None, ["A", "B", "C"]))
    ensures var r := Merge(c, m, payload, ctx);
      && r.conversation.members == ["A", "B", "C"]
      && r.message.groupUpdate == Some(GroupUpdate(Some("Team"), None, Some(["C"]), None))
  {
    UpdateScenarioGroup(c, payload.group.value, m.source, ctx.localNumber);
    MergeGroupPart(c, m, payload, ctx);
  }

  /** The group part of the worked UPDATE on its own. */
  lemma UpdateScenarioGroup(c: Conversation, g: GroupContext, source: string, localNumber: string)
    requires c.members == ["A", "B"] && c.name == None
    requires g == GroupContext("g", Update, Some("Team"), None, ["A", "B", "C"])
    ensures var r := ApplyGroup(c, g, source, localNumber);
      && r.conversation.members == ["A", "B", "C"]
      && r.update == Some(GroupUpdate(Some("Team"), None, Some(["C"]), None))
  {
    UpdateScenarioUnion();
    UpdateScenarioJoined();
    assert Union(g.members, c.members) == ["A", "B", "C"];
    assert Joined(c, g) == Some(["C"]);
  }

  /** A worked QUIT by the local user: the conversation is left, the summary
      reads "You", and the group's description says so. */
  lemma QuitScenario(c: Conversation, m: Message, payload: DataMessage, ctx: Context)
    requires payload.group.Some? && payload.group.value.kind == Quit
    requires m.source == ctx.localNumber
    ensures var r := Merge(c, m, payload, ctx);
      && r.conversation.left
      && GetDescription(r.message) == Some(Str("You left the group."))
  {
    MergeGroupPart(c, m, payload, ctx);
    QuitByYouDescription(Merge(c, m, payload, ctx).message);
  }

  /** A message whose summary says "You" left describes itself that way. */
  lemma QuitByYouDescription(msg: Message)
    requires msg.groupUpdate == Some(GroupUpdate(None, None, None, Some("You")))
    ensures GetDescription(msg) == Some(Str("You left the group."))
  {
    assert "You" + LEFT_SUFFIX == "You left the group.";
  }
}

=== FILE: records.dfy ===
/** The records the message model works on: a message, the conversation it
    belongs to, and the decrypted data-message payload that fills it in. */
module Records {
  import opened Wrappers
  import opened ErrorList

  /** Bits of a data message's `flags` (DataMessage.Flags of the Signal
      protocol buffers). */
  const END_SESSION: bv32 := 1
  const EXPIRATION_TIMER_UPDATE: bv32 := 2

  /** `!!(flags & flag)`. */
  predicate HasFlag(flags: bv32, flag: bv32) {
    flags & flag != 0
  }

  /** JavaScript truthiness of an optional timestamp: undefined and 0 both
      count as "not set". */
  predicate Present(t: Option<nat>) {
    t.Some? && t.value > 0
  }

  /** A message's `type`. */
  datatype Direction = Incoming | Outgoing | KeyChange

  datatype Attachment = Attachment(contentType: string, data: seq<bv8>)

  /** The `group_update` summary of a group message. `name` and `avatar` hold
      a new value only when it differs from the conversation's; `joined` is
      attached only when someone joined; `left` names who quit. */
  datatype GroupUpdate = GroupUpdate(
    name: Option<string>,
    avatar: Option<string>,
    joined: Option<seq<string>>,
    left: Option<string>)

  /** The `expirationTimerUpdate` record: who set the timer, and to what. */
  datatype TimerUpdate = TimerUpdate(source: string, expireTimer: nat)

  /** Text shown for a message: either literal text or a localized message
      identified by its key (rendering the key is outside the model). */
  datatype Text =
    | Str(s: string)
    | SessionEnded
    | IncomingKeyConflict
    | IncomingError
    | MediaMessage
    | TimerSetTo(seconds: nat)
    | KeyChanged(id: Option<string>)

  /** A message. Timestamps are milliseconds; `expireTimer` is in seconds and 0
      means unset; `unread == false` stands for the attribute being absent. */
  datatype Message = Message(
    conversationId: string,
    source: string,
    direction: Direction,
    sentAt: nat,
    receivedAt: nat,
    body: Option<string>,
    attachments: seq<Attachment>,
    flags: bv32,
    groupUpdate: Option<GroupUpdate>,
    errors: seq<ErrorRecord>,
    unread: bool,
    expireTimer: nat,
    expirationStartTimestamp: Option<nat>,
    expiresAt: Option<nat>,
    expirationTimerUpdate: Option<TimerUpdate>,
    delivered: nat,
    sent: bool,
    synced: bool,
    dataMessage: Option<seq<bv8>>,
    decryptedAt: Option<nat>,
    keyChanged: Option<string>)
  {
    predicate IsEndSession()
      ensures IsEndSession() <==> flags & END_SESSION != 0
      ensures IsEndSession() ==> flags != 0
      ensures flags == END_SESSION ==> IsEndSession() && !HasFlag(flags, EXPIRATION_TIMER_UPDATE)
    {
      HasFlag(flags, END_SESSION)
    }

    predicate IsExpirationTimerUpdate()
      ensures IsExpirationTimerUpdate() <==> flags & EXPIRATION_TIMER_UPDATE != 0
      ensures IsExpirationTimerUpdate() ==> flags != 0
      ensures flags == EXPIRATION_TIMER_UPDATE ==> IsExpirationTimerUpdate() && !HasFlag(flags, END_SESSION)
    {
      HasFlag(flags, EXPIRATION_TIMER_UPDATE)
    }

    predicate IsGroupUpdate()
      ensures IsGroupUpdate() <==> groupUpdate.Some?
    {
      groupUpdate.Some?
    }

    predicate IsIncoming()
      ensures IsIncoming() ==> direction != Outgoing && direction != KeyChange
      ensures direction == Incoming ==> IsIncoming()
    {
      direction == Incoming
    }
  }

  datatype ConversationKind = Private | Group

  /** A conversation. `members` is empty when the source leaves it undefined;
      `expireTimer` 0 means unset. */
  datatype Conversation = Conversation(
    id: string,
    kind: ConversationKind,
    groupId: Option<string>,
    name: Option<string>,
    avatar: Option<string>,
    members: seq<string>,
    left: bool,
    expireTimer: nat,
    unreadCount: nat,
    lastMessage: Option<Text>,
    timestamp: Option<nat>,
    activeAt: Option<nat>)

  /** The subtype of a group context: membership update, quit, or anything
      else (a plain delivery). */
  datatype GroupKind = Update | Quit | Deliver

  datatype GroupContext = GroupContext(
    id: string,
    kind: GroupKind,
    name: Option<string>,
    avatar: Option<string>,
    members: seq<string>)

  /** A decrypted data message. `expireTimer` 0 means unset. */
  datatype DataMessage = DataMessage(
    body: Option<string>,
    attachments: seq<Attachment>,
    flags: bv32,
    group: Option<GroupContext>,
    expireTimer: nat)
}

=== FILE: sending.dfy ===
/** The outgoing lifecycle of a message: what `send`, `resend` and
    `resolveConflict` do to it once the transport has answered
    (js/models/messages.js). The transport's answer is an input. */
module Sending {
  import opened Wrappers
  import opened ErrorList
  import opened Records
  import opened Expiration

  /** How the promise handed to `send` settled: resolved; rejected with an
      `Error`; or rejected with a partial-failure result listing per-identity
      errors and the identities that did receive the message. Each may carry
      the data message to replay to the sender's other devices. */
  datatype SendOutcome =
    | Delivered(dataMessage: Option<seq<bv8>>)
    | Failed(error: ErrorRecord, dataMessage: Option<seq<bv8>>)
    | PartiallyFailed(errors: ErrorInput, successfulNumbers: seq<string>, dataMessage: Option<seq<bv8>>)

  /** The message after `send`, and the requests it leaves for collaborators:
      a signed-prekey rotation, and a sync copy to the sender's devices. */
  datatype SendEffect = SendEffect(message: Message, rotateSignedPreKey: bool, syncRequested: bool)

  /** Marks a message sent now; the start time goes through the change
      listener, so the expiry deadline may be written too. */
  function MarkSent(m: Message, now: nat): (r: Message)
    ensures r.sent && r.expirationStartTimestamp == Some(now)
    ensures r == m.(sent := true, expirationStartTimestamp := Some(now), expiresAt := r.expiresAt)
  {
    WithExpirationStart(m.(sent := true), Some(now))
  }

  /** Whether the outcome counts as sent: a full success, or a partial
      failure in which at least one identity received the message. */
  predicate SucceededSomewhere(outcome: SendOutcome) {
    outcome.Delivered? || (outcome.PartiallyFailed? && |outcome.successfulNumbers| > 0)
  }

  /** The errors an outcome records. */
  function OutcomeErrors(outcome: SendOutcome): seq<ErrorRecord> {
    match outcome
    case Delivered(_) => []
    case Failed(e, _) => [e]
    case PartiallyFailed(es, _, _) => AsList(es)
  }

  /** `send`: records the outcome of a delivery attempt. */
  function Send(m: Message, outcome: SendOutcome, now: nat): (r: SendEffect)
    ensures r.syncRequested <==> SucceededSomewhere(outcome)
    ensures r.message.sent <==> m.sent || SucceededSomewhere(outcome)
    ensures outcome.Failed? ==> r.message.sent == m.sent
    ensures SucceededSomewhere(outcome) ==> r.message.expirationStartTimestamp == Some(now)
    ensures !SucceededSomewhere(outcome) ==>
      r.message.expirationStartTimestamp == m.expirationStartTimestamp && r.message.expiresAt == m.expiresAt
    ensures r.rotateSignedPreKey <==> outcome.Failed? && outcome.error.name == SIGNED_PRE_KEY_ROTATION_ERROR
    ensures |r.message.errors| == |OutcomeErrors(outcome)| + |m.errors|
    ensures r.message.errors[|OutcomeErrors(outcome)|..] == m.errors
    ensures forall i :: 0 <= i < |OutcomeErrors(outcome)| ==>
      r.message.errors[i] == Normalize(OutcomeErrors(outcome)[i])
    ensures r.message.dataMessage == if outcome.dataMessage.Some? then outcome.dataMessage else m.dataMessage
    ensures r.message == m.(sent := r.message.sent, expirationStartTimestamp := r.message.expirationStartTimestamp,
      expiresAt := r.message.expiresAt, errors := r.message.errors, dataMessage := r.message.dataMessage)
  {
    var m1 := if outcome.dataMessage.Some? then m.(dataMessage := outcome.dataMessage) else m;
    match outcome
    case Delivered(_) =>
      SendEffect(MarkSent(m1, now), false, true)
    case Failed(e, _) =>
      SendEffect(m1.(errors := SaveErrors(Single(e), m1.errors)), e.name == SIGNED_PRE_KEY_ROTATION_ERROR, false)
    case PartiallyFailed(es, numbers, _) =>
      var m2 := m1.(errors := SaveErrors(es, m1.errors));
      if |numbers| > 0 then SendEffect(MarkSent(m2, now), false, true)
      else SendEffect(m2, false, false)
  }

  /** A message whose countdown has not started leaves `send` with a
      consistent expiry deadline. */
  lemma SendKeepsExpiryConsistent(m: Message, outcome: SendOutcome, now: nat)
    requires ExpiryConsistent(m)
    requires !Present(m.expirationStartTimestamp)
    ensures ExpiryConsistent(Send(m, outcome, now).message)
  {
  }

  /** A deadline already written survives `send`: a message sent again after
      its countdown started keeps the first deadline, whatever the new start. */
  lemma SendKeepsExistingDeadline(m: Message, outcome: SendOutcome, now: nat)
    requires Present(m.expiresAt)
    ensures Send(m, outcome, now).message.expiresAt == m.expiresAt
  {
  }

  /** So the deadline need not match the start after a second successful
      send: started at 1 with a one-second timer, due at 1001, and sent again
      at 5000, the message starts at 5000 but is still due at 1001. */
  lemma SendAgainLeavesStaleDeadline(m: Message)
    requires m.expireTimer == 1 && m.expirationStartTimestamp == Some(1) && m.expiresAt == Some(1001)
    ensures ExpiryConsistent(m)
    ensures var r := Send(m, Delivered(None), 5000).message;
      r.expirationStartTimestamp == Some(5000) && r.expiresAt == Some(1001) && !ExpiryConsistent(r)
  {
    SendKeepsExistingDeadline(m, Delivered(None), 5000);
  }

  /** `send` never drops an error: the message keeps every error it had and
      gains the normalized form of every error of the outcome. */
  lemma SendKeepsErrors(m: Message, outcome: SendOutcome, now: nat)
    ensures var r := Send(m, outcome, now).message;
      && (forall e :: e in m.errors ==> e in r.errors)
      && (forall i :: 0 <= i < |OutcomeErrors(outcome)| ==> Normalize(OutcomeErrors(outcome)[i]) in r.errors)
  {
    var r := Send(m, outcome, now).message;
    var k := |OutcomeErrors(outcome)|;
    forall e | e in m.errors ensures e in r.errors {
      var j :| 0 <= j < |m.errors| && m.errors[j] == e;
      assert r.errors[k + j] == r.errors[k..][j];
    }
    assert forall i :: 0 <= i < k ==> r.errors[i] in r.errors;
  }

  /** The errors `send` leaves are the outcome's errors as `saveErrors`
      stores them, followed by the message's own. */
  lemma SendErrorsSplit(m: Message, outcome: SendOutcome, now: nat)
    ensures Send(m, outcome, now).message.errors == SaveErrors(Many(OutcomeErrors(outcome)), []) + m.errors
  {
    var r := Send(m, outcome, now).message.errors;
    var saved := SaveErrors(Many(OutcomeErrors(outcome)), []);
    assert r == r[..|saved|] + r[|saved|..];
    assert r[..|saved|] == saved;
  }

  /** The result of `resend(number)`: the effect of the replayed send, and
      the error that was replayed (none when there was nothing to resend). */
  datatype Resent = Resent(effect: SendEffect, replayed: Option<ErrorRecord>)

  /** `resend(number)`: takes the replayable errors for `number` off the
      message and, if there was one, sends again with the replay's outcome. */
  function Resend(m: Message, number: string, outcome: SendOutcome, now: nat): (r: Resent)
    ensures r.replayed.None? <==> forall i :: 0 <= i < |m.errors| ==> !IsReplayableFor(m.errors[i], number)
    ensures r.replayed.None? ==> r.effect == SendEffect(m, false, false)
    ensures r.replayed.Some? ==> r.replayed.value in m.errors && IsReplayableFor(r.replayed.value, number)
    ensures r.replayed == RemoveOutgoingErrors(m.errors, number).first
    ensures r.replayed.Some? ==> exists i :: (0 <= i < |m.errors| && m.errors[i] == r.replayed.value
      && forall j :: 0 <= j < i ==> !IsReplayableFor(m.errors[j], number))
    ensures r.replayed.Some? ==> r.effect == Send(m.(errors := RemoveOutgoingErrors(m.errors, number).kept), outcome, now)
    ensures r.effect.message.delivered == m.delivered
  {
    var removal := RemoveOutgoingErrors(m.errors, number);
    var m1 := m.(errors := removal.kept);
    if removal.first.Some? then Resent(Send(m1, outcome, now), removal.first)
    else Resent(SendEffect(m1, false, false), None)
  }

  /** A resend whose replay is delivered leaves no replayable error for that
      identity, keeps every other error, and does not lower `delivered`. */
  lemma ResendDeliveredClearsErrors(m: Message, number: string, dataMessage: Option<seq<bv8>>, now: nat)
    requires exists i :: 0 <= i < |m.errors| && IsReplayableFor(m.errors[i], number)
    ensures var r := Resend(m, number, Delivered(dataMessage), now).effect.message;
      && (forall e :: e in r.errors ==> !IsReplayableFor(e, number))
      && (forall e :: e in m.errors && !IsReplayableFor(e, number) ==> e in r.errors)
      && r.sent
      && r.delivered == m.delivered
  {
    var kept := RemoveOutgoingErrors(m.errors, number).kept;
    var r := Resend(m, number, Delivered(dataMessage), now).effect.message;
    assert r.errors[0..] == kept;
    assert r.errors == kept;
  }

  /** What `resolveConflict(number)` leaves behind: the message, and for an
      incoming message whose replay decrypted, the payload to merge again. */
  datatype Resolution = Resolution(
    message: Message,
    reprocess: Option<DataMessage>,
    replayed: bool,
    rotateSignedPreKey: bool,
    syncRequested: bool)

  /** `resolveConflict(number)`: if the message holds a key conflict for
      `number`, removes it and replays the blocked operation. An incoming
      message's replay either decrypts (and the payload is merged again) or
      fails (and its error is saved); an outgoing message's replay is a send.
      The conflict for `number` is removed again once the replay settles. */
  function ResolveConflict(m: Message, number: string, decrypted: Result<DataMessage, ErrorRecord>,
                           delivery: SendOutcome, now: nat): (r: Resolution)
    ensures r.replayed <==> HasKeyConflict(m.errors, number)
    ensures !r.replayed ==> r == Resolution(m, None, false, false, false)
    ensures r.reprocess.Some? <==> r.replayed && m.IsIncoming() && decrypted.Success?
    ensures r.reprocess.Some? ==> r.reprocess.value == decrypted.value
    ensures forall e :: e in m.errors && !IsConflictFor(e, number) ==> e in r.message.errors
    ensures r.replayed && (!m.IsIncoming() || decrypted.Success?) ==> !HasKeyConflict(r.message.errors, number)
    ensures r.replayed && !m.IsIncoming() ==>
      && (r.syncRequested <==> SucceededSomewhere(delivery))
      && (r.message.sent <==> m.sent || SucceededSomewhere(delivery))
      && (r.rotateSignedPreKey <==> delivery.Failed? && delivery.error.name == SIGNED_PRE_KEY_ROTATION_ERROR)
      && (SucceededSomewhere(delivery) ==> r.message.expirationStartTimestamp == Some(now))
    ensures r.replayed && !m.IsIncoming() ==>
      forall i :: 0 <= i < |OutcomeErrors(delivery)| && !IsConflictFor(OutcomeErrors(delivery)[i], number) ==>
        Normalize(OutcomeErrors(delivery)[i]) in r.message.errors
    ensures r.replayed && m.IsIncoming() ==> !r.rotateSignedPreKey && !r.syncRequested && r.message.sent == m.sent
    ensures r.replayed && m.IsIncoming() && decrypted.Failure? ==>
      |r.message.errors| > 0 && r.message.errors[0] == Normalize(decrypted.error)
    ensures r.replayed && m.IsIncoming() && decrypted.Success? ==>
      r.message.errors == RemoveConflictFor(m.errors, number)
    ensures r.replayed && m.IsIncoming() && decrypted.Failure? ==>
      r.message.errors == [Normalize(decrypted.error)] + RemoveConflictFor(m.errors, number)
    ensures r.replayed && !m.IsIncoming() ==>
      r.message.errors == RemoveConflictFor(SaveErrors(Many(OutcomeErrors(delivery)), []), number)
        + RemoveConflictFor(m.errors, number)
    ensures m.IsIncoming() ==> r.message == m.(errors := r.message.errors)
    ensures (m.IsIncoming() || !SucceededSomewhere(delivery)) ==>
      (r.message.expirationStartTimestamp == m.expirationStartTimestamp && r.message.expiresAt == m.expiresAt)
    ensures r.message == m.(sent := r.message.sent, expirationStartTimestamp := r.message.expirationStartTimestamp,
      expiresAt := r.message.expiresAt, errors := r.message.errors, dataMessage := r.message.dataMessage)
  {
    if GetKeyConflict(m.errors, number).None? then Resolution(m, None, false, false, false)
    else if m.IsIncoming() then ReplayIncoming(m, number, decrypted)
    else ReplayOutgoing(m, number, delivery, now)
  }

  /** An incoming message's replay: the conflict for `number` is removed, and
      the payload is merged again or the failure is saved in front of the
      other errors. */
  function ReplayIncoming(m: Message, number: string, decrypted: Result<DataMessage, ErrorRecord>): (r: Resolution)
    ensures r.replayed && !r.rotateSignedPreKey && !r.syncRequested
    ensures r.message == m.(errors := r.message.errors)
    ensures r.reprocess.Some? <==> decrypted.Success?
    ensures r.reprocess.Some? ==> r.reprocess.value == decrypted.value
    ensures forall e :: e in m.errors && !IsConflictFor(e, number) ==> e in r.message.errors
    ensures decrypted.Success? ==> !HasKeyConflict(r.message.errors, number)
    ensures decrypted.Failure? ==> |r.message.errors| > 0 && r.message.errors[0] == Normalize(decrypted.error)
    ensures decrypted.Success? ==> r.message.errors == RemoveConflictFor(m.errors, number)
    ensures decrypted.Failure? ==> r.message.errors == [Normalize(decrypted.error)] + RemoveConflictFor(m.errors, number)
  {
    var kept := RemoveConflictFor(m.errors, number);
    match decrypted
    case Success(payload) =>
      Resolution(m.(errors := kept), Some(payload), true, false, false)
    case Failure(e) =>
      var saved := SaveErrors(Single(e), kept);
      assert saved == [Normalize(e)] + kept by {
        assert saved[1..] == kept;
        assert saved == [saved[0]] + saved[1..];
      }
      Resolution(m.(errors := saved), None, true, false, false)
  }

  /** An outgoing message's replay: the conflict for `number` is removed, the
      message is sent, and the conflict is removed again once it settles. */
  function ReplayOutgoing(m: Message, number: string, delivery: SendOutcome, now: nat): (r: Resolution)
    ensures r.replayed && r.reprocess.None?
    ensures !HasKeyConflict(r.message.errors, number)
    ensures forall e :: e in m.errors && !IsConflictFor(e, number) ==> e in r.message.errors
    ensures r.syncRequested <==> SucceededSomewhere(delivery)
    ensures r.message.sent <==> m.sent || SucceededSomewhere(delivery)
    ensures r.rotateSignedPreKey <==> delivery.Failed? && delivery.error.name == SIGNED_PRE_KEY_ROTATION_ERROR
    ensures SucceededSomewhere(delivery) ==> r.message.expirationStartTimestamp == Some(now)
    ensures forall i :: 0 <= i < |OutcomeErrors(delivery)| && !IsConflictFor(OutcomeErrors(delivery)[i], number) ==>
      Normalize(OutcomeErrors(delivery)[i]) in r.message.errors
    ensures r.message.errors == RemoveConflictFor(SaveErrors(Many(OutcomeErrors(delivery)), []), number)
      + RemoveConflictFor(m.errors, number)
    ensures !SucceededSomewhere(delivery) ==>
      (r.message.expirationStartTimestamp == m.expirationStartTimestamp && r.message.expiresAt == m.expiresAt)
    ensures r.message.dataMessage == if delivery.dataMessage.Some? then delivery.dataMessage else m.dataMessage
    ensures r.message == m.(sent := r.message.sent, expirationStartTimestamp := r.message.expirationStartTimestamp,
      expiresAt := r.message.expiresAt, errors := r.message.errors, dataMessage := r.message.dataMessage)
  {
    var m1 := m.(errors := RemoveConflictFor(m.errors, number));
    var sent := Send(m1, delivery, now);
    SendErrorsSplit(m1, delivery, now);
    RemoveConflictForConcat(SaveErrors(Many(OutcomeErrors(delivery)), []), m1.errors, number);
    RemoveConflictForIdempotent(m.errors, number);
    SendKeepsErrors(m1, delivery, now);
    Resolution(sent.message.(errors := RemoveConflictFor(sent.message.errors, number)), None, true,
      sent.rotateSignedPreKey, sent.syncRequested)
  }
}

=== FILE: seqs.dfy ===
/** Order-preserving searches and splits over sequences: the `_.find`, `_.any`,
    `_.partition`, `_.filter` and `_.reject` that the message model is built from. */
module Seqs {
  import opened Wrappers

  /** Index of the first element satisfying `p`, if any. */
  function FirstIndex<T>(s: seq<T>, p: T -> bool): (r: Option<nat>)
    ensures r.None? <==> forall i :: 0 <= i < |s| ==> !p(s[i])
    ensures r.Some? ==> r.value < |s| && p(s[r.value])
    ensures r.Some? ==> forall i :: 0 <= i < r.value ==> !p(s[i])
  {
    if |s| == 0 then None
    else if p(s[0]) then Some(0)
    else
      match FirstIndex(s[1..], p)
      case None => None
      case Some(j) => Some(j + 1)
  }

  /** The two halves of `_.partition`: elements passing the test, then the others. */
  datatype Parts<T> = Parts(pass: seq<T>, fail: seq<T>)

  /** Splits `s` by `p`, each half keeping the relative order of `s`. */
  function Split<T>(s: seq<T>, p: T -> bool): Parts<T> {
    if |s| == 0 then Parts([], [])
    else
      var rest := Split(s[1..], p);
      if p(s[0]) then Parts([s[0]] + rest.pass, rest.fail)
      else Parts(rest.pass, [s[0]] + rest.fail)
  }

  /** What `Split` computes: every element lands in exactly the half its test
      result selects, and nothing is lost or duplicated. */
  lemma SplitFacts<T(!new)>(s: seq<T>, p: T -> bool)
    ensures forall x :: x in Split(s, p).pass <==> x in s && p(x)
    ensures forall x :: x in Split(s, p).fail <==> x in s && !p(x)
    ensures multiset(Split(s, p).pass) + multiset(Split(s, p).fail) == multiset(s)
    ensures |Split(s, p).pass| + |Split(s, p).fail| == |s|
    ensures (forall i :: 0 <= i < |s| ==> !p(s[i])) ==> Split(s, p).fail == s
  {
    SplitMembers(s, p);
    SplitCounts(s, p);
    if forall i :: 0 <= i < |s| ==> !p(s[i]) {
      SplitNonePass(s, p);
    }
  }

  /** Each half holds exactly the elements its test result selects. */
  lemma {:induction false} SplitMembers<T(!new)>(s: seq<T>, p: T -> bool)
    ensures forall x :: x in Split(s, p).pass <==> x in s && p(x)
    ensures forall x :: x in Split(s, p).fail <==> x in s && !p(x)
  {
    if |s| > 0 {
      assert s == [s[0]] + s[1..];
      SplitMembers(s[1..], p);
    }
  }

  /** Splitting loses and duplicates nothing. */
  lemma {:induction false} SplitCounts<T>(s: seq<T>, p: T -> bool)
    ensures multiset(Split(s, p).pass) + multiset(Split(s, p).fail) == multiset(s)
    ensures |Split(s, p).pass| + |Split(s, p).fail| == |s|
  {
    if |s| > 0 {
      assert s == [s[0]] + s[1..];
      SplitCounts(s[1..], p);
    }
  }

  /** Splitting moves nothing when no element passes. */
  lemma {:induction false} SplitNonePass<T>(s: seq<T>, p: T -> bool)
    requires forall i :: 0 <= i < |s| ==> !p(s[i])
    ensures Split(s, p).pass == [] && Split(s, p).fail == s
  {
    if |s| > 0 {
      assert s == [s[0]] + s[1..];
      SplitNonePass(s[1..], p);
    }
  }

  /** `_.partition`: the elements passing `p`, then the others, both in order. */
  function Partition<T(!new)>(s: seq<T>, p: T -> bool): (r: Parts<T>)
    ensures forall x :: x in r.pass <==> x in s && p(x)
    ensures forall x :: x in r.fail <==> x in s && !p(x)
    ensures multiset(r.pass) + multiset(r.fail) == multiset(s)
    ensures |r.pass| + |r.fail| == |s|
    ensures (forall i :: 0 <= i < |s| ==> !p(s[i])) ==> r.fail == s
  {
    SplitFacts(s, p);
    Split(s, p)
  }

  /** `_.filter`: the elements satisfying `p`, in order. */
  function Filter<T(!new)>(s: seq<T>, p: T -> bool): seq<T> {
    Partition(s, p).pass
  }

  /** `_.reject`: the elements not satisfying `p`, in order. */
  function Reject<T(!new)>(s: seq<T>, p: T -> bool): seq<T> {
    Partition(s, p).fail
  }

  /** Partitioning distributes over concatenation: this is what "keeps the
      original order" means, together with the single-element case. */
  lemma {:induction false} PartitionConcat<T(!new)>(a: seq<T>, b: seq<T>, p: T -> bool)
    ensures Partition(a + b, p).pass == Partition(a, p).pass + Partition(b, p).pass
    ensures Partition(a + b, p).fail == Partition(a, p).fail + Partition(b, p).fail
  {
    SplitConcat(a, b, p);
  }

  lemma {:induction false} SplitConcat<T>(a: seq<T>, b: seq<T>, p: T -> bool)
    ensures Split(a + b, p).pass == Split(a, p).pass + Split(b, p).pass
    ensures Split(a + b, p).fail == Split(a, p).fail + Split(b, p).fail
  {
    if |a| == 0 {
      assert a + b == b;
    } else {
      assert (a + b)[1..] == a[1..] + b;
      SplitConcat(a[1..], b, p);
    }
  }

  /** The first element of the passing half is the element `FirstIndex` finds. */
  lemma {:induction false} PartitionHeadIsFirst<T(!new)>(s: seq<T>, p: T -> bool)
    ensures |Partition(s, p).pass| > 0 <==> FirstIndex(s, p).Some?
    ensures FirstIndex(s, p).Some? ==> Partition(s, p).pass[0] == s[FirstIndex(s, p).value]
  {
    if |s| > 0 && !p(s[0]) {
      PartitionHeadIsFirst(s[1..], p);
    }
    if |Partition(s, p).pass| > 0 {
      assert Partition(s, p).pass[0] in Partition(s, p).pass;
    }
  }

  /** Partitioning again by the same test changes nothing in the rejected half. */
  lemma {:induction false} RejectIdempotent<T(!new)>(s: seq<T>, p: T -> bool)
    ensures Reject(Reject(s, p), p) == Reject(s, p)
  {
    var r := Reject(s, p);
    assert forall i :: 0 <= i < |r| ==> !p(r[i]) by {
      forall i | 0 <= i < |r| ensures !p(r[i]) {
        assert r[i] in r;
      }
    }
  }

  /** No element occurs twice. */
  predicate Distinct<T(==)>(s: seq<T>) {
    forall i, j :: 0 <= i < j < |s| ==> s[i] != s[j]
  }

  lemma DistinctCons<T>(x: T, s: seq<T>)
    ensures Distinct([x] + s) <==> x !in s && Distinct(s)
  {
    var t := [x] + s;
    if x in s {
      var k :| 0 <= k < |s| && s[k] == x;
      assert t[0] == t[k + 1];
    } else {
      if Distinct(s) {
        forall i, j | 0 <= i < j < |t| ensures t[i] != t[j] {
          if i == 0 {
            assert t[j] == s[j - 1];
          } else {
            assert t[i] == s[i - 1] && t[j] == s[j - 1];
          }
        }
      }
      if Distinct(t) {
        forall i, j | 0 <= i < j < |s| ensures s[i] != s[j] {
          assert s[i] == t[i + 1] && s[j] == t[j + 1];
        }
      }
    }
  }

  /** Both halves of a partition of a duplicate-free sequence are duplicate-free. */
  lemma {:induction false} PartitionDistinct<T(!new)>(s: seq<T>, p: T -> bool)
    requires Distinct(s)
    ensures Distinct(Partition(s, p).pass) && Distinct(Partition(s, p).fail)
  {
    if |s| > 0 {
      assert s == [s[0]] + s[1..];
      DistinctCons(s[0], s[1..]);
      PartitionDistinct(s[1..], p);
      var rest := Partition(s[1..], p);
      DistinctCons(s[0], rest.pass);
      DistinctCons(s[0], rest.fail);
    }
  }
}

=== FILE: wrappers.dfy ===
/** Optional values and results, used for attributes the source may leave undefined
    and for asynchronous operations that either resolve or reject. */
module Wrappers {

  datatype Option<+T> = None | Some(value: T)

  datatype Result<+R, +E> = Success(value: R) | Failure(error: E)
}
